=== FILE: README.md ===
# Football fixture forecasting — a Dafny model

This project models the forecasting pipeline of `futebol_analitico`: a
statistical engine, a tip advisor, a dataset processor and a league loader.

- **Engine** (`analyzer.dfy`, `score_grid.dfy`). The engine takes the league's
  mean home and away goals. From them it derives each team's four strength
  ratios (attack and defence, at home and away). It multiplies the ratios into
  expected goals for a fixture. It builds the 6×6 grid of scoreline
  probabilities `pmf(h, λh)·pmf(a, λa)`. It reduces the grid to home-win, draw
  and away-win percentages.
- **Advisor** (`predictor.dfy`). Five fixed threshold rules turn a prediction
  into at most five tips, in rule order: winner, over 2.5 goals, both teams to
  score, corners and cards. Each percentage-based tip carries break-even
  ("fair") odds `round(100 / p, 2)`.
- **Processor** (`processor.dfy`, `matches.dfy`, `text_order.dfy`). The
  processor keeps and renames the mapped columns of a league file. It lists
  the home-side team names, sorted and unique. It reports a team's recent form:
  the latest `games` rows at a venue, each figure averaged over `games`.
- **Loader** (`data_loader.dfy`). The loader maps league names to
  football-data.co.uk codes and formats the download URL. It derives the safe
  local file name a league is saved under.

Numbers are Dafny `real`s. Python's `round` is modelled as round-half-even on
reals (`Rounding.Round`). Its error is proved to be at most half a unit in the
last kept place, and every property about a rounded figure is stated through
that bound. The Poisson probability mass function is a parameter `pmf`. Where
a property needs it, `pmf` is constrained by `ScoreGrid.PmfLaw`: at a
non-negative mean, each value lies in [0, 1], and the mass over 0..5 is at
most 1. Nothing is assumed at a negative mean. The properties that feed
expected goals to the pmf require non-negative goal counts
(`Matches.CountsNonNegative`), from which the expected goals are proved
non-negative.

The engine's dataset and league averages are fixed when it is built. Its
operations therefore take them as arguments (`df`, and `avgs =
LeagueAverages(df)`); there is no engine class. The loops that fill the grid
(`FillScoreMatrix`), sum its regions (`SumOver25`, `SumBtts`), append tips
(`SuggestTips`) and tally a team's rows (`TallyRows`) are methods. Each is
proved equal to the specification function that the lemmas are about. The
processor and the loader update a field in place, so they are classes:
`DataProcessor.df` and `DataLoader.rawData`.

The advisor's rules 4 and 5 (src/predictor.py:75-97) read a
'secondary_metrics' entry of the prediction: its expected corner and card
totals. The terminal front end (main.py:89-113) also reads that entry's
per-side and total corners and cards. But the bundle `predict_match` returns
(src/analyzer.py:76-85) has no such entry, and nothing in the engine computes
those figures. The model therefore takes them as an explicit input
(`Secondary`), and the as-written behaviour is recorded under Findings.

## Model

| member | source | states |
|---|---|---|
| Rounding.Round | src/analyzer.py:79-83 | `round(x, d)` lies within half a unit of the d-th decimal of `x`, and is non-negative for non-negative `x` |
| Analyzer.LeagueAverages | src/analyzer.py:12-19 | each league average times the number of rows is that column's total: the arithmetic mean of home goals and of away goals |
| Analyzer.CalculateStrength | src/analyzer.py:21-43 | no strength exactly when the team has no home rows or no away rows; otherwise each ratio times the league mean it divides by gives the team's own mean at that venue (home scored/conceded, away scored/conceded) |
| Analyzer.HomeExpectedGoals | src/analyzer.py:58 | the home side's expected goals are 0 when its home attack or the visitor's away defence is 0 (value, sign and data-level zero cases: ExpectedGoalsFromMeans, ExpectedGoalsNonNegative) |
| Analyzer.AwayExpectedGoals | src/analyzer.py:61 | the away side's expected goals are 0 when its away attack or the home side's home defence is 0 (value, sign and data-level zero cases: ExpectedGoalsFromMeans, ExpectedGoalsNonNegative) |
| Analyzer.PredictionOf | src/analyzer.py:45-85 | a present prediction carries a 6×6 grid |
| Analyzer.FillScoreMatrix | src/analyzer.py:63-69 | filling a zero 6×6 array in place, cell by cell, yields the grid of products `pmf(h, λh)·pmf(a, λa)` |
| Analyzer.PredictMatch | src/analyzer.py:45-85 | `predict_match` returns exactly the prediction the specification function defines |
| AnalyzerProperties.LeagueAveragesIgnoreRowOrder | src/analyzer.py:12-19 | league averages depend only on the multiset of rows |
| AnalyzerProperties.MeanIgnoresRowOrder | src/analyzer.py:15-17 | a column mean depends only on the multiset of rows |
| AnalyzerProperties.StrengthIgnoresRowOrder | src/analyzer.py:27-38 | a team's strength is the same for any reordering of the dataset |
| AnalyzerProperties.PredictionIgnoresRowOrder | src/analyzer.py:45-85 | a prediction is the same for any reordering of the dataset |
| AnalyzerProperties.PredictionAbsentIffMissingHistory | src/analyzer.py:50-54 | no prediction exactly when either team's strength is absent, i.e. either team lacks home or away rows |
| AnalyzerProperties.ExpectedGoalsNonNegative | src/analyzer.py:27-61 | on a dataset with non-negative scores, both expected-goal figures are non-negative; the home side's is 0 when it never scored at home or the visitor never conceded away, and the away side's symmetrically |
| AnalyzerProperties.ExpectedGoalsFromMeans | src/analyzer.py:56-61 | home xG = home side's mean home goals × visitor's mean home goals conceded away / league home mean; away xG symmetrically |
| AnalyzerProperties.PredictionContents | src/analyzer.py:63-85 | on a dataset with non-negative scores: reported λs are the expected goals to 2 places; the grid cells are the Poisson products; each percentage is 100 × its triangle's mass to 1 place; the three masses sum to at most 1; the percentages are non-negative and sum to at most 100.15 |
| ScoreGrid.ScoreMatrix | src/analyzer.py:64-69 | the grid is 6×6 and cell (h, a) is `pmf(h, λh)·pmf(a, λa)` |
| ScoreGrid.OutcomePartition | src/analyzer.py:71-74 | lower triangle + diagonal + upper triangle = the whole grid's mass |
| ScoreGrid.RegionBounds | src/analyzer.py:71-74 | on a non-negative grid every region's mass lies between 0 and the whole grid's |
| ScoreGrid.ScoreMatrixIsSubProbability | src/analyzer.py:64-69 | under the pmf law, for non-negative means, the grid is non-negative and its total is the product of the two axis masses, hence in [0, 1] |
| Matches.Select | src/processor.py:48-53 | the venue filter keeps exactly the rows where the team is home (`home`), away (`away`) or either, never more rows than given |
| Matches.SumOfPermutation | src/analyzer.py:15-17 | a column total depends only on the multiset of rows |
| Matches.SelectPermutation | src/analyzer.py:27-34 | filtering reordered rows gives a reordering of the filtered rows |
| Matches.GoalsForAgainstSplit | src/processor.py:64-73 | goals scored plus goals conceded by the team is the total goals of the rows |
| Matches.AbsentCornersCountZero | src/processor.py:69 | rows without corner figures contribute 0 corners |
| Predictor.SumOver25 | src/predictor.py:42-45 | the nested accumulator loop yields the mass of the cells with h + a > 2.5 |
| Predictor.SumBtts | src/predictor.py:59-62 | the nested accumulator loop over 1..5 × 1..5 yields the mass of the cells with h ≥ 1 and a ≥ 1 |
| Predictor.PercentTip | src/predictor.py:24-38 | a probability-based tip states its percentage with the given market, selection and confidence, and carries odds within 0.005 of 100 / p |
| Predictor.WinnerTips | src/predictor.py:23-38 | at most one winner tip, present exactly when the home or the away percentage reaches 55; it has odds and is never "Baixa" |
| Predictor.Over25Tips | src/predictor.py:49-56 | one over-2.5 tip exactly when the percentage reaches 60, stating that percentage, "Alta" exactly when it exceeds 70 and "Média" otherwise |
| Predictor.BttsTips | src/predictor.py:65-72 | one both-teams-score tip exactly when the percentage reaches 60, stating that percentage, always "Média" |
| Predictor.CornersTips | src/predictor.py:76-85 | one corners tip exactly when the expected total reaches 10.5, backing "Over 9.5 Cantos" and stating that mean, with odds "-" and confidence "Média" |
| Predictor.CardsTips | src/predictor.py:88-97 | one cards tip exactly when the expected total reaches 4.5, backing "Over 3.5 Cartões" and stating that mean, with odds "-" and confidence "Baixa" |
| Predictor.AdviceTips | src/predictor.py:17-97 | at most five tips, each in one of the four markets (winner, goals, corners, cards) |
| Predictor.Advice | src/predictor.py:11-103 | the error entry "Dados insuficientes para análise." exactly when there is no prediction; otherwise the label "home vs away", the prediction unchanged as 'stats', and at most five tips |
| Predictor.SuggestTips | src/predictor.py:17-97 | the appended tip list equals the rules' tips in order 1 → 5 |
| Predictor.GetMatchSuggestion | src/predictor.py:7-103 | `get_match_suggestion` returns the error entry or the report the specification function defines |
| PredictorProperties.TipsInRuleOrder | src/predictor.py:17-97 | tips are in strict rule order, each from rule 1..5, at most five, never two winner tips |
| PredictorProperties.WinnerPrecedence | src/predictor.py:23-38 | the home side is tipped whenever its percentage reaches 55 (even if the away side's does too); the away side only otherwise; no winner tip when neither reaches 55 |
| PredictorProperties.PercentTipPricedFairly | src/predictor.py:24-30 | a tip priced from a percentage of at least 55 has odds within 0.005 of 100 / p |
| PredictorProperties.OddsTimesPercent | src/predictor.py:28 | odds within 0.005 of 100 / p pay back 100 within 0.005 × p: the odds are break-even for the stated percentage |
| PredictorProperties.FairOddsBreakEven | src/predictor.py:24-97 | every tip with odds is priced fairly from a percentage of at least 55 (no division by zero), and exactly the tips of rules 1–3 carry odds |
| PredictorProperties.ConfidenceTiers | src/predictor.py:29-96 | winner "Alta" iff p > 65, over-2.5 "Alta" iff p > 70, otherwise "Média"; BTTS and corners always "Média"; cards always "Baixa"; corners and cards have odds "-" |
| PredictorProperties.RulesFireAtThresholds | src/predictor.py:40-97 | the over-2.5, BTTS, corners and cards tips appear iff their figure reaches 60, 60, 10.5 and 4.5, and each states that figure; the corners and cards tips back "Over 9.5 Cantos" and "Over 3.5 Cartões" |
| PredictorProperties.InsufficientIffMissingHistory | src/predictor.py:11-15 | the error entry "Dados insuficientes para análise." exactly when a team lacks history; otherwise the report's label is "home vs away" and its stats are the prediction unchanged |
| SecondaryMetricsFinding.AdviceAsWritten | src/predictor.py:74-76 | as written: the error entry without a prediction; with one, a KeyError on 'secondary_metrics' when the bundle lacks that entry, and the corrected advice when it has it |
| SecondaryMetricsFinding.AsWrittenNeverReports | src/predictor.py:74-76 | on the bundle `predict_match` builds (src/analyzer.py:76-85), the as-written advisor never returns a tip list |
| SecondaryMetricsFinding.TwoClubLeagueRaises | src/predictor.py:75 | for a two-club league, the as-written advisor raises a KeyError while the corrected advisor reports |
| Processor.KeptColumns | src/processor.py:28 | the kept columns are exactly the mapped columns present in the file, in map order |
| Processor.RenamedColumns | src/processor.py:29 | each kept column is renamed to its mapped name, in the same order |
| Processor.Clean | src/processor.py:27-29 | the rows are kept; a column is in the cleaned frame exactly when it is the new name of a mapped column present in the file; at most 14 columns |
| Processor.SortByDate | src/processor.py:55 | sorting by date yields a date-ordered permutation of the rows |
| Processor.Tail | src/processor.py:55 | `tail(n)` is a suffix of length min(n, len) for n ≥ 0, and drops the first −n rows for n < 0 |
| Processor.VenueOf | src/processor.py:48-53 | 'home' selects home rows and 'away' away rows, exactly; any other value selects both |
| Processor.NatToString | src/processor.py:80 | the numeral of a natural number is a non-empty string of digits with no leading zero, whose decimal value is the number |
| Processor.IntToString | src/processor.py:80 | `str(n)`: the digits of n, preceded by '-' when n is negative, denoting the absolute value of n |
| Processor.FilterLabel | src/processor.py:80 | the filter label is "Últimos ", then the numeral of `games`, then " jogos (location)" |
| Processor.Average | src/processor.py:81-85 | an average is within 0.005 of total / games, and non-negative for a non-negative total over positive games |
| Processor.TeamStatsOf | src/processor.py:45-86 | no report exactly when no row is kept; a report implies `games` ≠ 0 |
| Processor.TallyRows | src/processor.py:59-76 | 'jogos' is the number of kept rows, and the row loop's counters are the totals of goals for/against, shots on target, corners and cards attributed to the team |
| Processor.DataProcessor.constructor | src/processor.py:6-9 | a processor (path "data/premier_league_2526.csv" by default) built on a found file holds its cleaned frame; on a missing file it holds none |
| Processor.DataProcessor.LoadAndClean | src/processor.py:11-35 | a found file is cleaned into `df`; a missing one leaves `df` unchanged and returns nothing |
| Processor.DataProcessor.ListTeams | src/processor.py:37-40 | no dataset gives []; otherwise strictly sorted, containing exactly the names appearing as home side |
| Processor.DataProcessor.GetTeamStats | src/processor.py:45-86 | no dataset gives none; otherwise the report the specification function defines (by default the latest 5 games at any venue) |
| ProcessorProperties.MandatoryColumnsOnly | src/processor.py:17-29 | a file with only the five mandatory columns is cleaned to exactly their five new names, rows unchanged |
| ProcessorProperties.LatestRowsKept | src/processor.py:55 | for games ≥ 0, min(games, matched) rows are kept, all from the matched rows, and every dropped row is no later than every kept row |
| ProcessorProperties.KeptRowsInvolveTeam | src/processor.py:48-55 | every aggregated row involves the team at the requested venue |
| ProcessorProperties.TeamStatsAbsent | src/processor.py:55-57 | for games ≥ 0, no report exactly when games = 0 or the team has no row at that venue |
| ProcessorProperties.TeamStatsAverages | src/processor.py:64-85 | the report names the team and its filter is `FilterLabel(games, location)`; each reported average is within 0.005 of its total over the kept rows divided by `games` (not by the rows found); goals for + against = all goals of those rows |
| TextOrder.SortedUnique | src/processor.py:40 | `sorted(unique(...))` is strictly increasing and has exactly the names given |
| TextOrder.StrictlySortedDistinct | src/processor.py:40 | a strictly increasing list has no duplicates |
| TextOrder.LessTrichotomy | src/processor.py:40 | any two names are ordered one way, or are equal |
| TextOrder.LessTransitive | src/processor.py:40 | the name order is transitive |
| DataLoading.CodeOf | src/data_loader.py:31-34 | a code is found only for a listed league, and it is that league's code |
| DataLoading.LeagueUrl | src/data_loader.py:36 | the URL is the base with the code substituted, of the matching length |
| DataLoading.CodeFromUrl | src/data_loader.py:9 | a code read back from a URL formats to that URL |
| DataLoading.Lower | src/data_loader.py:53 | `lower()` keeps the length, and maps each ASCII or Latin-1 capital 32 code points down and every other character to itself |
| DataLoading.ReplaceChar | src/data_loader.py:53 | `replace(" ", "_")` keeps the length and replaces exactly the occurrences of the character |
| DataLoading.DeleteChar | src/data_loader.py:53 | `replace("(", "")` leaves no occurrence of the character, keeps every other character present, and keeps the rest in order |
| DataLoading.SafeName | src/data_loader.py:53 | the safe name contains no space and no parenthesis |
| DataLoading.Filename | src/data_loader.py:54 | the file name is "data/" + safe name + "_2526.csv" |
| DataLoading.DataLoader.constructor | src/data_loader.py:23-24 | a new loader holds no table |
| DataLoading.DataLoader.LoadData | src/data_loader.py:26-45 | an unknown league gives none and no download; otherwise the download of the league's URL is returned, held on success, and the previous table kept on failure |
| DataLoading.DataLoader.SaveLocal | src/data_loader.py:47-59 | none exactly when no table is held; otherwise the league's file name |
| DataLoadingProperties.KnownLeagueIffListed | src/data_loader.py:12-34 | a name has a code exactly when it is one of the eight listed leagues |
| DataLoadingProperties.UrlRoundTrip | src/data_loader.py:36 | the code is recovered from the URL it was formatted into |
| DataLoadingProperties.UrlsDistinct | src/data_loader.py:12-21 | different codes give different URLs |
| DataLoadingProperties.SafeNameLength | src/data_loader.py:53 | the safe name is the name's length minus its parentheses, and has one underscore per space or underscore of the name |
| DataLoadingProperties.SafeNameIsSafe | src/data_loader.py:53 | every character of a safe name is already lower-case, and none is a space or parenthesis |
| DataLoadingProperties.SafeNameIdempotent | src/data_loader.py:53 | sanitising a safe name again returns it unchanged |

## Left out

- The Poisson mass function from scipy is not computed. It is a parameter `pmf`, constrained where needed by `PmfLaw` (at a non-negative mean: values in [0, 1], mass over 0..5 at most 1).
- AnalyzerProperties.PredictionContents: requires non-negative goal counts (`CountsNonNegative`). With a negative count the expected goals can be negative, and scipy's pmf then gives NaN, which is not modelled.
- IEEE floating point is not modelled: numbers are exact reals. Python's `round` is round-half-even on the exact value, not on its binary approximation.
- Analyzer.LeagueAverages: requires a non-empty dataset. With no rows, pandas' mean is NaN, and NaN is not modelled.
- Analyzer.CalculateStrength: requires positive league averages. The source divides by them unguarded, and a zero league mean (a division by zero, or an infinity or NaN in numpy) is not modelled.
- Analyzer.PredictionOf: its own contract only states the grid's shape. Its contents are stated by `AnalyzerProperties.PredictionContents`.
- Predictor.GetMatchSuggestion: the 'probabilidade' strings (`f"{p}%"`, `f"Média esperada: {x}"`) are kept as the numbers they print. Float-to-text formatting is not modelled.
- The corner and card totals the advisor reads are an explicit input (`Secondary`). The code that should compute them does not exist (see Findings), and no computation is invented for them.
- Processor.SortByDate: pandas' sort is not stable by default, and the order among rows with equal dates is not pinned down. The model uses one date-ordered permutation. Properties about the kept rows hold for any order among equal dates only as far as `LatestRowsKept` states them.
- Reading the CSV file, `pd.to_datetime` date parsing and the file-not-found exception are not modelled. The file arrives parsed: `Option<CsvFile>`, with dates as integers and `None` for a missing file.
- The processor models rows as typed records, so cleaning renames the header only. A row always has the five mandatory fields. Loading requires `FiguresMatchHeader`: an optional figure whose column the file lacks is `None` in every row. `row.get(col, 0)` is modelled as "absent counts 0"; a NaN cell is not modelled.
- The 'jogos' count of `get_team_stats` is never returned by the source. It is kept only as `Tally.games`, proved equal to the number of kept rows.
- The network download `pd.read_csv(url)` is a parameter `download` of `LoadData`. The directory creation and the CSV write in `save_local` are not modelled: `SaveLocal` returns the path only.
- DataLoading.Lower: `str.lower` is modelled for ASCII and Latin-1 capitals only (the letters league names use). Full Unicode case mapping is not modelled.
- The console messages (`print`) of the loader and processor are not modelled.
- `main.py` (the terminal user interface) is not part of this model, and neither are the `__main__` demo blocks of the engine, advisor and processor.

## Findings

| source | as written | input that shows it | evidently intended | confidence | as-written member | corrected member |
|---|---|---|---|---|---|---|
| src/predictor.py:75 | rule 4 reads `prediction['secondary_metrics']`, but the bundle `predict_match` returns (src/analyzer.py:76-85) has no such key, so every call with a prediction raises KeyError and no tips are ever returned | two clubs A and B that met once at each ground, fixture A vs B | the bundle carries expected corner and card totals that rules 4 and 5 read | not executed | SecondaryMetricsFinding.TwoClubLeagueRaises | Predictor.GetMatchSuggestion |

=== FILE: analyzer.dfy ===
/**
 * The statistical engine: league goal averages, per-team strength ratios,
 * expected goals and the scoreline grid with its 1X2 (home/draw/away) sums.
 *
 * The engine's dataset and its league averages are fixed when it is built,
 * so its operations take them as arguments: `df` and `avgs`, where `avgs`
 * is `LeagueAverages(df)`.
 */
module Analyzer {
  import opened Wrappers
  import opened Rounding
  import opened Matches
  import opened ScoreGrid

  datatype LeagueAvgs = LeagueAvgs(homeGoals: real, awayGoals: real)

  /** Strength ratios of one team: its venue means relative to the league's. */
  datatype Strength = Strength(attackHome: real, defenseHome: real, attackAway: real, defenseAway: real)

  /** The prediction bundle returned for one fixture. */
  datatype Prediction = Prediction(
    homeTeam: string,
    awayTeam: string,
    lambdaHome: real,     // expected home goals, 2 decimals
    lambdaAway: real,     // expected away goals, 2 decimals
    probHome: real,       // percentages, 1 decimal
    probDraw: real,
    probAway: real,
    scoreMatrix: Matrix)  // the raw grid

  predicate PositiveAverages(avgs: LeagueAvgs) {
    avgs.homeGoals > 0.0 && avgs.awayGoals > 0.0
  }

  /** The arithmetic mean of a column over some rows. */
  function Mean(rows: seq<MatchRow>, k: Measure): real
    requires |rows| > 0
  {
    SumOf(rows, k) as real / |rows| as real
  }

  /** Mean home goals and mean away goals over every row of the league. */
  function LeagueAverages(df: seq<MatchRow>): (avgs: LeagueAvgs)
    requires |df| > 0
    ensures avgs.homeGoals * |df| as real == SumOf(df, HomeGoals) as real
    ensures avgs.awayGoals * |df| as real == SumOf(df, AwayGoals) as real
  {
    LeagueAvgs(Mean(df, HomeGoals), Mean(df, AwayGoals))
  }

  /**
   * The four strength ratios of `team`, or `None` when it has no home rows or
   * no away rows. Each ratio times the league mean it is divided by gives back
   * the team's own mean at that venue.
   */
  function CalculateStrength(df: seq<MatchRow>, avgs: LeagueAvgs, team: string): (s: Option<Strength>)
    requires PositiveAverages(avgs)
    ensures s.None? <==> |Select(df, team, AtHome)| == 0 || |Select(df, team, Away)| == 0
    ensures s.Some? ==>
      var home, away := Select(df, team, AtHome), Select(df, team, Away);
      && s.value.attackHome * avgs.homeGoals == Mean(home, HomeGoals)
      && s.value.defenseHome * avgs.awayGoals == Mean(home, AwayGoals)
      && s.value.attackAway * avgs.awayGoals == Mean(away, AwayGoals)
      && s.value.defenseAway * avgs.homeGoals == Mean(away, HomeGoals)
  {
    var home := Select(df, team, AtHome);
    if |home| == 0 then None
    else
      var attHome := Mean(home, HomeGoals) / avgs.homeGoals;
      var defHome := Mean(home, AwayGoals) / avgs.awayGoals;
      var away := Select(df, team, Away);
      if |away| == 0 then None
      else
        var attAway := Mean(away, AwayGoals) / avgs.awayGoals;
        var defAway := Mean(away, HomeGoals) / avgs.homeGoals;
        Some(Strength(attHome, defHome, attAway, defAway))
  }

  /**
   * Home attack × away side's away defence × league home mean: 0 when
   * either strength factor is 0. Its value in terms of the venue means, its
   * sign and its zero cases on the data are stated by the lemmas
   * `ExpectedGoalsFromMeans` and `ExpectedGoalsNonNegative`.
   */
  function HomeExpectedGoals(home: Strength, away: Strength, avgs: LeagueAvgs): (xg: real)
    ensures home.attackHome == 0.0 || away.defenseAway == 0.0 ==> xg == 0.0
  {
    home.attackHome * away.defenseAway * avgs.homeGoals
  }

  /** Away attack × home side's home defence × league away mean, likewise. */
  function AwayExpectedGoals(home: Strength, away: Strength, avgs: LeagueAvgs): (xg: real)
    ensures away.attackAway == 0.0 || home.defenseHome == 0.0 ==> xg == 0.0
  {
    away.attackAway * home.defenseHome * avgs.awayGoals
  }

  /** What `predict_match` returns: `None` when either side lacks history. */
  function PredictionOf(df: seq<MatchRow>, avgs: LeagueAvgs, pmf: Pmf, homeTeam: string, awayTeam: string)
    : (p: Option<Prediction>)
    requires PositiveAverages(avgs)
    ensures p.Some? ==> IsGrid(p.value.scoreMatrix)
  {
    var hs := CalculateStrength(df, avgs, homeTeam);
    var aws := CalculateStrength(df, avgs, awayTeam);
    if hs.None? || aws.None? then None
    else
      var homeXg := HomeExpectedGoals(hs.value, aws.value, avgs);
      var awayXg := AwayExpectedGoals(hs.value, aws.value, avgs);
      var m := ScoreMatrix(pmf, homeXg, awayXg);
      Some(Prediction(homeTeam, awayTeam, Round(homeXg, 2), Round(awayXg, 2),
        Round(RegionSum(m, HomeWin) * 100.0, 1),
        Round(RegionSum(m, Draw) * 100.0, 1),
        Round(RegionSum(m, AwayWin) * 100.0, 1),
        m))
  }

  /**
   * The grid of `predict_match`: a 6×6 array of zeros filled in place, cell by
   * cell, with `pmf(h, homeXg) * pmf(a, awayXg)`.
   */
  method FillScoreMatrix(pmf: Pmf, homeXg: real, awayXg: real) returns (matrix: Matrix)
    ensures matrix == ScoreMatrix(pmf, homeXg, awayXg)
  {
    var probs := new real[K, K];
    for h := 0 to K
      invariant forall i, j :: 0 <= i < h && 0 <= j < K ==> probs[i, j] == pmf(i, homeXg) * pmf(j, awayXg)
    {
      for a := 0 to K
        invariant forall i, j :: 0 <= i < h && 0 <= j < K ==> probs[i, j] == pmf(i, homeXg) * pmf(j, awayXg)
        invariant forall j :: 0 <= j < a ==> probs[h, j] == pmf(h, homeXg) * pmf(j, awayXg)
      {
        probs[h, a] := pmf(h, homeXg) * pmf(a, awayXg);
      }
    }
    matrix := seq(K, h requires 0 <= h < K reads probs =>
      seq(K, a requires 0 <= a < K reads probs => probs[h, a]));
    var expected := ScoreMatrix(pmf, homeXg, awayXg);
    forall h | 0 <= h < K ensures matrix[h] == expected[h] {
      assert |matrix[h]| == |expected[h]| == K;
    }
  }

  /**
   * `predict_match`: both strengths, the expected goals, the grid, and its
   * home-win, draw and away-win sums as percentages.
   */
  method PredictMatch(df: seq<MatchRow>, avgs: LeagueAvgs, pmf: Pmf, homeTeam: string, awayTeam: string)
    returns (p: Option<Prediction>)
    requires PositiveAverages(avgs)
    ensures p == PredictionOf(df, avgs, pmf, homeTeam, awayTeam)
  {
    var homeStats := CalculateStrength(df, avgs, homeTeam);
    var awayStats := CalculateStrength(df, avgs, awayTeam);
    if homeStats.None? || awayStats.None? {
      return None;
    }
    var homeXg := HomeExpectedGoals(homeStats.value, awayStats.value, avgs);
    var awayXg := AwayExpectedGoals(homeStats.value, awayStats.value, avgs);
    var matrix := FillScoreMatrix(pmf, homeXg, awayXg);
    var probHomeWin := RegionSum(matrix, HomeWin);
    var probDraw := RegionSum(matrix, Draw);
    var probAwayWin := RegionSum(matrix, AwayWin);
    p := Some(Prediction(homeTeam, awayTeam, Round(homeXg, 2), Round(awayXg, 2),
      Round(probHomeWin * 100.0, 1), Round(probDraw * 100.0, 1), Round(probAwayWin * 100.0, 1),
      matrix));
  }
}

module AnalyzerProperties {
  import opened Rounding
  import opened Matches
  import opened ScoreGrid
  import opened Analyzer

  /** The league averages do not depend on the order of the dataset's rows. */
  lemma LeagueAveragesIgnoreRowOrder(df1: seq<MatchRow>, df2: seq<MatchRow>)
    requires |df1| > 0 && multiset(df1) == multiset(df2)
    ensures |df2| > 0 && LeagueAverages(df1) == LeagueAverages(df2)
  {
    assert |df1| == |multiset(df1)| == |multiset(df2)| == |df2|;
    SumOfPermutation(df1, df2, HomeGoals);
    SumOfPermutation(df1, df2, AwayGoals);
  }

  lemma MeanIgnoresRowOrder(s: seq<MatchRow>, t: seq<MatchRow>, k: Measure)
    requires |s| > 0 && multiset(s) == multiset(t)
    ensures |t| == |s| && Mean(s, k) == Mean(t, k)
  {
    assert |s| == |multiset(s)| == |multiset(t)| == |t|;
    SumOfPermutation(s, t, k);
  }

  /** A team's strength depends only on the multiset of rows, not on their order. */
  lemma StrengthIgnoresRowOrder(df1: seq<MatchRow>, df2: seq<MatchRow>, avgs: LeagueAvgs, team: string)
    requires PositiveAverages(avgs) && multiset(df1) == multiset(df2)
    ensures CalculateStrength(df1, avgs, team) == CalculateStrength(df2, avgs, team)
  {
    SelectPermutation(df1, df2, team, AtHome);
    SelectPermutation(df1, df2, team, Away);
    var h1, h2 := Select(df1, team, AtHome), Select(df2, team, AtHome);
    var a1, a2 := Select(df1, team, Away), Select(df2, team, Away);
    if |h1| > 0 {
      MeanIgnoresRowOrder(h1, h2, HomeGoals);
      MeanIgnoresRowOrder(h1, h2, AwayGoals);
    }
    if |a1| > 0 {
      MeanIgnoresRowOrder(a1, a2, HomeGoals);
      MeanIgnoresRowOrder(a1, a2, AwayGoals);
    }
  }

  /** So is the whole prediction for a fixture. */
  lemma PredictionIgnoresRowOrder(df1: seq<MatchRow>, df2: seq<MatchRow>, avgs: LeagueAvgs, pmf: Pmf,
                                  homeTeam: string, awayTeam: string)
    requires PositiveAverages(avgs) && multiset(df1) == multiset(df2)
    ensures PredictionOf(df1, avgs, pmf, homeTeam, awayTeam) == PredictionOf(df2, avgs, pmf, homeTeam, awayTeam)
  {
    StrengthIgnoresRowOrder(df1, df2, avgs, homeTeam);
    StrengthIgnoresRowOrder(df1, df2, avgs, awayTeam);
  }

  /**
   * There is no prediction exactly when one of the two teams has no home rows
   * or no away rows; in particular a team that never played at home gets none.
   */
  lemma PredictionAbsentIffMissingHistory(df: seq<MatchRow>, avgs: LeagueAvgs, pmf: Pmf,
                                          homeTeam: string, awayTeam: string)
    requires PositiveAverages(avgs)
    ensures PredictionOf(df, avgs, pmf, homeTeam, awayTeam).None? <==>
      || CalculateStrength(df, avgs, homeTeam).None?
      || CalculateStrength(df, avgs, awayTeam).None?
    ensures PredictionOf(df, avgs, pmf, homeTeam, awayTeam).None? <==>
      || |Select(df, homeTeam, AtHome)| == 0 || |Select(df, homeTeam, Away)| == 0
      || |Select(df, awayTeam, AtHome)| == 0 || |Select(df, awayTeam, Away)| == 0
  {
  }

  /**
   * Expected goals cancel one league mean: the home side's expectation is its
   * mean home goals scored times the visitor's mean away goals conceded, over
   * the league home mean (and symmetrically for the away side).
   */
  lemma ExpectedGoalsFromMeans(df: seq<MatchRow>, avgs: LeagueAvgs, homeTeam: string, awayTeam: string)
    requires PositiveAverages(avgs)
    requires CalculateStrength(df, avgs, homeTeam).Some? && CalculateStrength(df, avgs, awayTeam).Some?
    ensures
      var hs, aws := CalculateStrength(df, avgs, homeTeam).value, CalculateStrength(df, avgs, awayTeam).value;
      && HomeExpectedGoals(hs, aws, avgs)
         == Mean(Select(df, homeTeam, AtHome), HomeGoals) * Mean(Select(df, awayTeam, Away), HomeGoals)
            / avgs.homeGoals
      && AwayExpectedGoals(hs, aws, avgs)
         == Mean(Select(df, awayTeam, Away), AwayGoals) * Mean(Select(df, homeTeam, AtHome), AwayGoals)
            / avgs.awayGoals
  {
    var hs, aws := CalculateStrength(df, avgs, homeTeam).value, CalculateStrength(df, avgs, awayTeam).value;
    var scored := Mean(Select(df, homeTeam, AtHome), HomeGoals);
    var conceded := Mean(Select(df, awayTeam, Away), HomeGoals);
    assert hs.attackHome == scored / avgs.homeGoals;
    assert aws.defenseAway == conceded / avgs.homeGoals;
    CancelMean(scored, conceded, avgs.homeGoals);
    var scoredAway := Mean(Select(df, awayTeam, Away), AwayGoals);
    var concededHome := Mean(Select(df, homeTeam, AtHome), AwayGoals);
    assert aws.attackAway == scoredAway / avgs.awayGoals;
    assert hs.defenseHome == concededHome / avgs.awayGoals;
    CancelMean(scoredAway, concededHome, avgs.awayGoals);
  }

  lemma CancelMean(x: real, y: real, m: real)
    requires m > 0.0
    ensures (x / m) * (y / m) * m == x * y / m
  {
    calc {
      (x / m) * (y / m) * m;
      == (x / m) * ((y / m) * m);
      == (x / m) * y;
      == x * y / m;
    }
  }

  /**
   * With non-negative scores, expected goals are never negative; a home side
   * that never scored at home, or a visitor that never conceded away, gives
   * the home side 0 expected goals (and symmetrically for the away side).
   */
  lemma ExpectedGoalsNonNegative(df: seq<MatchRow>, avgs: LeagueAvgs, homeTeam: string, awayTeam: string)
    requires PositiveAverages(avgs) && CountsNonNegative(df)
    requires CalculateStrength(df, avgs, homeTeam).Some? && CalculateStrength(df, avgs, awayTeam).Some?
    ensures
      var hs, aws := CalculateStrength(df, avgs, homeTeam).value, CalculateStrength(df, avgs, awayTeam).value;
      && HomeExpectedGoals(hs, aws, avgs) >= 0.0
      && AwayExpectedGoals(hs, aws, avgs) >= 0.0
      && (SumOf(Select(df, homeTeam, AtHome), HomeGoals) == 0 || SumOf(Select(df, awayTeam, Away), HomeGoals) == 0
          ==> HomeExpectedGoals(hs, aws, avgs) == 0.0)
      && (SumOf(Select(df, awayTeam, Away), AwayGoals) == 0 || SumOf(Select(df, homeTeam, AtHome), AwayGoals) == 0
          ==> AwayExpectedGoals(hs, aws, avgs) == 0.0)
  {
    ExpectedGoalsFromMeans(df, avgs, homeTeam, awayTeam);
    var homeRows, awayRows := Select(df, homeTeam, AtHome), Select(df, awayTeam, Away);
    MeanNonNegative(df, homeTeam, AtHome, HomeGoals);
    MeanNonNegative(df, homeTeam, AtHome, AwayGoals);
    MeanNonNegative(df, awayTeam, Away, HomeGoals);
    MeanNonNegative(df, awayTeam, Away, AwayGoals);
    QuotientNonNegative(Mean(homeRows, HomeGoals), Mean(awayRows, HomeGoals), avgs.homeGoals);
    QuotientNonNegative(Mean(awayRows, AwayGoals), Mean(homeRows, AwayGoals), avgs.awayGoals);
  }

  /** A team's mean goal figure at a venue is not negative, and is 0 when the column adds up to 0. */
  lemma MeanNonNegative(df: seq<MatchRow>, team: string, v: Venue, k: Measure)
    requires CountsNonNegative(df) && (k == HomeGoals || k == AwayGoals) && |Select(df, team, v)| > 0
    ensures Mean(Select(df, team, v), k) >= 0.0
    ensures SumOf(Select(df, team, v), k) == 0 ==> Mean(Select(df, team, v), k) == 0.0
  {
    var rows := Select(df, team, v);
    assert CountsNonNegative(rows);
    GoalSumNonNegative(rows, k);
  }

  /** x·y/m is not negative for non-negative x and y, and 0 when either is. */
  lemma QuotientNonNegative(x: real, y: real, m: real)
    requires x >= 0.0 && y >= 0.0 && m > 0.0
    ensures x * y / m >= 0.0
    ensures x == 0.0 || y == 0.0 ==> x * y / m == 0.0
  {
    assert x * y >= 0.0;
  }

  /**
   * A prediction's fields: the reported expected goals are the model's rounded
   * to 2 places, its grid holds the independent Poisson products, and the
   * three percentages are the home-win, draw and away-win masses of that grid
   * rounded to 1 place. The masses add up to the grid's, at most 1, so the
   * percentages add up to at most 100 plus three rounding steps.
   */
  lemma PredictionContents(df: seq<MatchRow>, avgs: LeagueAvgs, pmf: Pmf, homeTeam: string, awayTeam: string)
    requires PositiveAverages(avgs) && PmfLaw(pmf) && CountsNonNegative(df)
    requires PredictionOf(df, avgs, pmf, homeTeam, awayTeam).Some?
    ensures
      var p := PredictionOf(df, avgs, pmf, homeTeam, awayTeam).value;
      var hs, aws := CalculateStrength(df, avgs, homeTeam).value, CalculateStrength(df, avgs, awayTeam).value;
      var homeXg, awayXg := HomeExpectedGoals(hs, aws, avgs), AwayExpectedGoals(hs, aws, avgs);
      && p.homeTeam == homeTeam && p.awayTeam == awayTeam
      && -0.005 <= p.lambdaHome - homeXg <= 0.005
      && -0.005 <= p.lambdaAway - awayXg <= 0.005
      && (forall h, a :: 0 <= h < K && 0 <= a < K ==> p.scoreMatrix[h][a] == pmf(h, homeXg) * pmf(a, awayXg))
      && -0.05 <= p.probHome - 100.0 * RegionSum(p.scoreMatrix, HomeWin) <= 0.05
      && -0.05 <= p.probDraw - 100.0 * RegionSum(p.scoreMatrix, Draw) <= 0.05
      && -0.05 <= p.probAway - 100.0 * RegionSum(p.scoreMatrix, AwayWin) <= 0.05
      && RegionSum(p.scoreMatrix, HomeWin) + RegionSum(p.scoreMatrix, Draw) + RegionSum(p.scoreMatrix, AwayWin)
         <= 1.0
      && 0.0 <= p.probHome && 0.0 <= p.probDraw && 0.0 <= p.probAway
      && p.probHome + p.probDraw + p.probAway <= 100.15
  {
    var p := PredictionOf(df, avgs, pmf, homeTeam, awayTeam).value;
    var hs, aws := CalculateStrength(df, avgs, homeTeam).value, CalculateStrength(df, avgs, awayTeam).value;
    var homeXg, awayXg := HomeExpectedGoals(hs, aws, avgs), AwayExpectedGoals(hs, aws, avgs);
    var m := p.scoreMatrix;
    assert m == ScoreMatrix(pmf, homeXg, awayXg);
    assert Tolerance(2) == 0.005 && Tolerance(1) == 0.05;
    ExpectedGoalsNonNegative(df, avgs, homeTeam, awayTeam);
    ScoreMatrixIsSubProbability(pmf, homeXg, awayXg);
    OutcomePartition(m);
    RegionBounds(m, HomeWin);
    RegionBounds(m, Draw);
    RegionBounds(m, AwayWin);
  }
}

=== FILE: data_loader.dfy ===
/**
 * The league loader: league names and their football-data.co.uk codes, the
 * download URL of a league's 2025/26 file, and the local file name a league
 * is saved under.
 */
module DataLoading {
  import opened Wrappers
  import opened Matches

  /** The leagues on offer, by display name, with their file codes. */
  const Leagues: map<string, string> := map[
    "Premier League (Inglaterra)" := "E0",
    "Championship (Inglaterra 2ª)" := "E1",
    "La Liga (Espanha)" := "SP1",
    "Serie A (Itália)" := "I1",
    "Bundesliga (Alemanha)" := "D1",
    "Ligue 1 (França)" := "F1",
    "Liga Portugal (Portugal)" := "P1",
    "Eredivisie (Holanda)" := "N1"
  ]

  /** The download URL with the league code left out: the part before it and after it. */
  const UrlPrefix: string := "https://www.football-data.co.uk/mmz4281/2526/"
  const UrlSuffix: string := ".csv"

  /** The code of a league: absent for an unknown name, and for an empty code. */
  function CodeOf(leagueName: string): (code: Option<string>)
    ensures code.Some? ==> leagueName in Leagues && code.value == Leagues[leagueName]
  {
    if leagueName in Leagues && Leagues[leagueName] != "" then Some(Leagues[leagueName]) else None
  }

  /** The league's file URL: the code substituted into the base URL. */
  function LeagueUrl(code: string): (url: string)
    ensures |url| == |UrlPrefix| + |code| + |UrlSuffix|
  {
    UrlPrefix + code + UrlSuffix
  }

  /** Reads the code back out of a URL built by `LeagueUrl`. */
  function CodeFromUrl(url: string): (code: Option<string>)
    ensures code.Some? ==> LeagueUrl(code.value) == url
  {
    if |url| >= |UrlPrefix| + |UrlSuffix|
       && url[..|UrlPrefix|] == UrlPrefix
       && url[|url| - |UrlSuffix|..] == UrlSuffix
    then
      var code := url[|UrlPrefix|..|url| - |UrlSuffix|];
      assert url == url[..|UrlPrefix|] + code + url[|url| - |UrlSuffix|..];
      Some(code)
    else None
  }

  // ----- the safe file name -----

  /**
   * `str.lower` on one character, for the ASCII and Latin-1 capitals (the
   * letters league names are written in).
   */
  function LowerChar(c: char): (l: char)
    ensures !('A' <= c <= 'Z' || ('À' <= c <= 'Þ' && c != '×')) ==> l == c
    ensures ('A' <= c <= 'Z' || ('À' <= c <= 'Þ' && c != '×')) ==> l as int == c as int + 32
    ensures !('A' <= l <= 'Z' || ('À' <= l <= 'Þ' && l != '×'))
  {
    if 'A' <= c <= 'Z' || ('À' <= c <= 'Þ' && c != '×') then (c as int + 32) as char else c
  }

  function Lower(s: string): (l: string)
    ensures |l| == |s| && forall i :: 0 <= i < |s| ==> l[i] == LowerChar(s[i])
  {
    if |s| == 0 then [] else [LowerChar(s[0])] + Lower(s[1..])
  }

  /** `str.replace(from, to)` for single characters. */
  function ReplaceChar(s: string, from: char, to: char): (r: string)
    ensures |r| == |s|
    ensures forall i :: 0 <= i < |s| ==> r[i] == (if s[i] == from then to else s[i])
  {
    if |s| == 0 then [] else [if s[0] == from then to else s[0]] + ReplaceChar(s[1..], from, to)
  }

  /** `str.replace(c, "")`: every occurrence of `c` removed, the rest in order. */
  function DeleteChar(s: string, c: char): (r: string)
    ensures c !in r
    ensures forall x :: x != c ==> (x in r <==> x in s)
    ensures IsSubsequence(r, s)
  {
    if |s| == 0 then []
    else if s[0] == c then DeleteChar(s[1..], c)
    else
      var rest := DeleteChar(s[1..], c);
      assert ([s[0]] + rest)[1..] == rest;
      [s[0]] + rest
  }

  /** Lower-cased, spaces turned into underscores, parentheses dropped. */
  function SafeName(leagueName: string): (safe: string)
    ensures ' ' !in safe && '(' !in safe && ')' !in safe
  {
    DeleteChar(DeleteChar(ReplaceChar(Lower(leagueName), ' ', '_'), '('), ')')
  }

  /** Where `save_local` writes a league's table. */
  function Filename(leagueName: string): (path: string)
    ensures |path| == |SafeName(leagueName)| + 14
    ensures path[..5] == "data/" && path[|path| - 9..] == "_2526.csv"
    ensures path[5..|path| - 9] == SafeName(leagueName)
  {
    "data/" + SafeName(leagueName) + "_2526.csv"
  }

  /** Holds the table downloaded last. */
  class DataLoader {
    var rawData: Option<CsvFile>

    constructor()
      ensures rawData == None
    {
      rawData := None;
    }

    /**
     * Downloads the league's table with `download` (the network read, given
     * as a function of the URL). An unknown league gives `None` and no
     * download; a failed download gives `None` and keeps the table held
     * before; a successful one is held and returned.
     */
    method LoadData(leagueName: string, download: string -> Option<CsvFile>) returns (r: Option<CsvFile>)
      modifies this
      ensures CodeOf(leagueName).None? ==> r == None
      ensures CodeOf(leagueName).Some? ==> r == download(LeagueUrl(CodeOf(leagueName).value))
      ensures rawData == (if r.Some? then r else old(rawData))
    {
      var code := CodeOf(leagueName);
      if code.None? {
        return None;
      }
      var url := LeagueUrl(code.value);
      r := download(url);
      if r.Some? {
        rawData := r;
      }
    }

    /**
     * The path the held table is written to, or `None` when nothing has
     * been downloaded.
     */
    method SaveLocal(leagueName: string) returns (r: Option<string>)
      ensures r.None? <==> rawData.None?
      ensures r.Some? ==> r.value == Filename(leagueName)
    {
      if rawData.None? {
        return None;
      }
      var safeName := SafeName(leagueName);
      r := Some("data/" + safeName + "_2526.csv");
    }
  }
}

module DataLoadingProperties {
  import opened Wrappers
  import opened DataLoading

  /** Every league on offer has a code, so a name has a code exactly when it is on offer. */
  lemma KnownLeagueIffListed(leagueName: string)
    ensures CodeOf(leagueName).Some? <==> leagueName in Leagues
  {
    if leagueName in Leagues {
      var code := Leagues[leagueName];
      assert code in Leagues.Values;
    }
  }

  /** The code is recovered from the URL it was formatted into. */
  lemma UrlRoundTrip(code: string)
    ensures CodeFromUrl(LeagueUrl(code)) == Some(code)
  {
    var url := LeagueUrl(code);
    assert url[..|UrlPrefix|] == UrlPrefix;
    assert url[|url| - |UrlSuffix|..] == UrlSuffix;
    assert url[|UrlPrefix|..|url| - |UrlSuffix|] == code;
  }

  /** Different codes give different URLs, so no two leagues share a download. */
  lemma UrlsDistinct(c1: string, c2: string)
    requires c1 != c2
    ensures LeagueUrl(c1) != LeagueUrl(c2)
  {
    UrlRoundTrip(c1);
    UrlRoundTrip(c2);
  }

  function Count(s: string, c: char): nat {
    if |s| == 0 then 0 else (if s[0] == c then 1 else 0) + Count(s[1..], c)
  }

  lemma {:induction false} LowerKeepsCount(s: string, c: char)
    requires c == ' ' || c == '(' || c == ')' || c == '_'
    ensures Count(Lower(s), c) == Count(s, c)
    decreases |s|
  {
    if |s| > 0 {
      assert Lower(s)[1..] == Lower(s[1..]);
      LowerKeepsCount(s[1..], c);
    }
  }

  lemma {:induction false} ReplaceCounts(s: string)
    ensures Count(ReplaceChar(s, ' ', '_'), '_') == Count(s, ' ') + Count(s, '_')
    ensures Count(ReplaceChar(s, ' ', '_'), '(') == Count(s, '(')
    ensures Count(ReplaceChar(s, ' ', '_'), ')') == Count(s, ')')
    decreases |s|
  {
    if |s| > 0 {
      assert ReplaceChar(s, ' ', '_')[1..] == ReplaceChar(s[1..], ' ', '_');
      ReplaceCounts(s[1..]);
    }
  }

  lemma {:induction false} DeleteCounts(s: string, c: char, d: char)
    requires c != d
    ensures |DeleteChar(s, c)| == |s| - Count(s, c)
    ensures Count(DeleteChar(s, c), d) == Count(s, d)
    decreases |s|
  {
    if |s| > 0 {
      DeleteCounts(s[1..], c, d);
    }
  }

  /**
   * The safe name is as long as the name without its parentheses, and has
   * one underscore per space or underscore of the name.
   */
  lemma SafeNameLength(leagueName: string)
    ensures |SafeName(leagueName)| == |leagueName| - Count(leagueName, '(') - Count(leagueName, ')')
    ensures Count(SafeName(leagueName), '_') == Count(leagueName, ' ') + Count(leagueName, '_')
  {
    var lowered := Lower(leagueName);
    var replaced := ReplaceChar(lowered, ' ', '_');
    var noOpen := DeleteChar(replaced, '(');
    LowerKeepsCount(leagueName, ' ');
    LowerKeepsCount(leagueName, '(');
    LowerKeepsCount(leagueName, ')');
    LowerKeepsCount(leagueName, '_');
    ReplaceCounts(lowered);
    DeleteCounts(replaced, '(', ')');
    DeleteCounts(replaced, '(', '_');
    DeleteCounts(noOpen, ')', '_');
  }

  /** A string with no capital, space or parenthesis. */
  predicate IsSafe(s: string) {
    forall i :: 0 <= i < |s| ==> LowerChar(s[i]) == s[i] && s[i] != ' ' && s[i] != '(' && s[i] != ')'
  }

  lemma {:induction false} LowerOfSafe(s: string)
    requires forall i :: 0 <= i < |s| ==> LowerChar(s[i]) == s[i]
    ensures Lower(s) == s
  {
  }

  lemma {:induction false} ReplaceAbsent(s: string, from: char, to: char)
    requires from !in s
    ensures ReplaceChar(s, from, to) == s
  {
  }

  lemma {:induction false} DeleteAbsent(s: string, c: char)
    requires c !in s
    ensures DeleteChar(s, c) == s
    decreases |s|
  {
    if |s| > 0 {
      assert c !in s[1..];
      DeleteAbsent(s[1..], c);
      assert s == [s[0]] + s[1..];
    }
  }

  /** Every character of a safe name is already lower-case. */
  lemma {:induction false} SafeNameIsSafe(leagueName: string)
    ensures IsSafe(SafeName(leagueName))
  {
    var lowered := Lower(leagueName);
    var replaced := ReplaceChar(lowered, ' ', '_');
    var safe := SafeName(leagueName);
    forall i | 0 <= i < |safe| ensures LowerChar(safe[i]) == safe[i] {
      var c := safe[i];
      assert c in safe;
      assert c in replaced;
      var j :| 0 <= j < |replaced| && replaced[j] == c;
      assert c == '_' || c == lowered[j];
    }
  }

  /** Making an already safe name safe again changes nothing. */
  lemma SafeNameIdempotent(leagueName: string)
    ensures SafeName(SafeName(leagueName)) == SafeName(leagueName)
  {
    var safe := SafeName(leagueName);
    SafeNameIsSafe(leagueName);
    LowerOfSafe(safe);
    ReplaceAbsent(safe, ' ', '_');
    DeleteAbsent(safe, '(');
    DeleteAbsent(safe, ')');
  }
}

=== FILE: matches.dfy ===
/**
 * Match rows of the cleaned dataset, the per-team row filters and the
 * per-row quantities that the engine and the processor add up.
 */
module Matches {
  import opened Wrappers

  /**
   * One renamed dataset row. The optional statistics are `None` when the
   * league's file has no such column.
   */
  datatype MatchRow = MatchRow(
    date: int,                        // 'data', as a day number
    homeTeam: string,                 // 'mandante'
    awayTeam: string,                 // 'visitante'
    homeGoals: int,                   // 'gols_mandante'
    awayGoals: int,                   // 'gols_visitante'
    homeShotsOnTarget: Option<int>,   // 'chutes_alvo_mandante'
    awayShotsOnTarget: Option<int>,   // 'chutes_alvo_visitante'
    homeCorners: Option<int>,         // 'cantos_mandante'
    awayCorners: Option<int>,         // 'cantos_visitante'
    homeYellows: Option<int>,         // 'amarelos_mandante'
    awayYellows: Option<int>,         // 'amarelos_visitante'
    homeReds: Option<int>,            // 'vermelhos_mandante'
    awayReds: Option<int>)            // 'vermelhos_visitante'

  /** A league file as read: its header and its typed rows. */
  datatype CsvFile = CsvFile(header: seq<string>, rows: seq<MatchRow>)

  /** `sub` is `s` with some entries left out and the others in their order. */
  predicate IsSubsequence<T(==)>(sub: seq<T>, s: seq<T>)
    decreases |s|
  {
    if |sub| == 0 then true
    else if |s| == 0 then false
    else (sub[0] == s[0] && IsSubsequence(sub[1..], s[1..])) || IsSubsequence(sub, s[1..])
  }

  /** The goal columns hold counts: no row has a negative score. */
  predicate CountsNonNegative(rows: seq<MatchRow>) {
    forall r :: r in rows ==> r.homeGoals >= 0 && r.awayGoals >= 0
  }

  /** Which rows of a team a filter keeps. */
  datatype Venue = AtHome | Away | Either

  predicate Involves(r: MatchRow, team: string, v: Venue) {
    match v
    case AtHome => r.homeTeam == team
    case Away => r.awayTeam == team
    case Either => r.homeTeam == team || r.awayTeam == team
  }

  /** The boolean-mask filter `df[mask]`: the rows that involve `team`, in dataset order. */
  function Select(rows: seq<MatchRow>, team: string, v: Venue): (sel: seq<MatchRow>)
    ensures |sel| <= |rows|
    ensures forall r :: r in sel <==> r in rows && Involves(r, team, v)
  {
    if |rows| == 0 then []
    else
      var last := rows[|rows| - 1];
      Select(rows[..|rows| - 1], team, v) + (if Involves(last, team, v) then [last] else [])
  }

  /**
   * A per-row quantity. The team-relative ones attribute a row's figures to
   * `team` by whether it played at home in that row.
   */
  datatype Measure =
    | HomeGoals
    | AwayGoals
    | GoalsFor(team: string)
    | GoalsAgainst(team: string)
    | ShotsOnTarget(team: string)
    | Corners(team: string)
    | Cards(team: string)

  function Value(r: MatchRow, k: Measure): int {
    match k
    case HomeGoals => r.homeGoals
    case AwayGoals => r.awayGoals
    case GoalsFor(t) => if r.homeTeam == t then r.homeGoals else r.awayGoals
    case GoalsAgainst(t) => if r.homeTeam == t then r.awayGoals else r.homeGoals
    case ShotsOnTarget(t) =>
      if r.homeTeam == t then r.homeShotsOnTarget.GetOr(0) else r.awayShotsOnTarget.GetOr(0)
    case Corners(t) =>
      if r.homeTeam == t then r.homeCorners.GetOr(0) else r.awayCorners.GetOr(0)
    case Cards(t) =>
      if r.homeTeam == t then r.homeYellows.GetOr(0) + r.homeReds.GetOr(0)
      else r.awayYellows.GetOr(0) + r.awayReds.GetOr(0)
  }

  /** The column sum of `k` over `rows`. */
  function SumOf(rows: seq<MatchRow>, k: Measure): int {
    if |rows| == 0 then 0 else SumOf(rows[..|rows| - 1], k) + Value(rows[|rows| - 1], k)
  }

  /** A goal column of rows with non-negative scores adds up to at least 0. */
  lemma {:induction false} GoalSumNonNegative(rows: seq<MatchRow>, k: Measure)
    requires CountsNonNegative(rows) && (k == HomeGoals || k == AwayGoals)
    ensures SumOf(rows, k) >= 0
  {
    if |rows| > 0 {
      var front := rows[..|rows| - 1];
      assert forall r :: r in front ==> r in rows;
      GoalSumNonNegative(front, k);
      assert rows[|rows| - 1] in rows;
    }
  }

  lemma {:induction false} SumOfAppend(a: seq<MatchRow>, b: seq<MatchRow>, k: Measure)
    ensures SumOf(a + b, k) == SumOf(a, k) + SumOf(b, k)
    decreases |b|
  {
    if |b| == 0 {
      assert a + b == a;
    } else {
      assert (a + b)[..|a + b| - 1] == a + b[..|b| - 1];
      SumOfAppend(a, b[..|b| - 1], k);
    }
  }

  /** Taking one row out of a dataset takes its value out of every column sum. */
  lemma RemoveRow(t: seq<MatchRow>, i: nat, k: Measure)
    requires i < |t|
    ensures multiset(t[..i] + t[i + 1..]) == multiset(t) - multiset{t[i]}
    ensures SumOf(t, k) == SumOf(t[..i] + t[i + 1..], k) + Value(t[i], k)
  {
    var x := t[i];
    assert t == t[..i] + [x] + t[i + 1..];
    SumOfAppend(t[..i], [x], k);
    SumOfAppend(t[..i] + [x], t[i + 1..], k);
    SumOfAppend(t[..i], t[i + 1..], k);
  }

  /** A column sum depends only on the multiset of rows, not on their order. */
  lemma {:induction false} SumOfPermutation(s: seq<MatchRow>, t: seq<MatchRow>, k: Measure)
    requires multiset(s) == multiset(t)
    ensures SumOf(s, k) == SumOf(t, k)
    decreases |s|
  {
    if |s| == 0 {
      assert |t| == |multiset(t)| == 0;
    } else {
      var init, x := s[..|s| - 1], s[|s| - 1];
      assert s == init + [x];
      assert multiset(init) == multiset(s) - multiset{x};
      assert x in t by { assert x in multiset(s); }
      var i :| 0 <= i < |t| && t[i] == x;
      var rest := t[..i] + t[i + 1..];
      RemoveRow(t, i, k);
      assert multiset(init) == multiset(rest);
      SumOfPermutation(init, rest, k);
      assert SumOf(s, k) == SumOf(init, k) + Value(x, k);
    }
  }

  /** How often a row occurs in a filtered dataset. */
  lemma {:induction false} SelectCount(rows: seq<MatchRow>, team: string, v: Venue, x: MatchRow)
    ensures multiset(Select(rows, team, v))[x] == if Involves(x, team, v) then multiset(rows)[x] else 0
    decreases |rows|
  {
    if |rows| > 0 {
      var init, last := rows[..|rows| - 1], rows[|rows| - 1];
      assert rows == init + [last];
      SelectCount(init, team, v, x);
    }
  }

  /** Filtering two reorderings of one dataset gives reorderings of one result. */
  lemma SelectPermutation(s: seq<MatchRow>, t: seq<MatchRow>, team: string, v: Venue)
    requires multiset(s) == multiset(t)
    ensures multiset(Select(s, team, v)) == multiset(Select(t, team, v))
    ensures |Select(s, team, v)| == |Select(t, team, v)|
  {
    forall x ensures multiset(Select(s, team, v))[x] == multiset(Select(t, team, v))[x] {
      SelectCount(s, team, v, x);
      SelectCount(t, team, v, x);
    }
    assert multiset(Select(s, team, v)) == multiset(Select(t, team, v));
    assert |multiset(Select(s, team, v))| == |Select(s, team, v)|;
    assert |multiset(Select(t, team, v))| == |Select(t, team, v)|;
  }

  /**
   * Attributing each row's goals to the team and to its opponent splits the
   * row's total: goals for plus goals against is the rows' total goals.
   */
  lemma {:induction false} GoalsForAgainstSplit(rows: seq<MatchRow>, team: string)
    ensures SumOf(rows, GoalsFor(team)) + SumOf(rows, GoalsAgainst(team))
         == SumOf(rows, HomeGoals) + SumOf(rows, AwayGoals)
    decreases |rows|
  {
    if |rows| > 0 {
      GoalsForAgainstSplit(rows[..|rows| - 1], team);
    }
  }

  /** Rows that lack an optional column contribute nothing to its sums. */
  lemma {:induction false} AbsentCornersCountZero(rows: seq<MatchRow>, team: string)
    requires forall r :: r in rows ==> r.homeCorners.None? && r.awayCorners.None?
    ensures SumOf(rows, Corners(team)) == 0
    decreases |rows|
  {
    if |rows| > 0 {
      assert rows[|rows| - 1] in rows;
      AbsentCornersCountZero(rows[..|rows| - 1], team);
    }
  }
}

=== FILE: predictor.dfy ===
/**
 * The tip advisor: five ordered threshold rules over one prediction bundle,
 * each adding at most one tip with its break-even ("fair") odds.
 */
module Predictor {
  import opened Wrappers
  import opened Rounding
  import opened Matches
  import opened ScoreGrid
  import opened Analyzer

  /** 'confianca': "Alta", "Média", "Baixa". */
  datatype Confidence = Alta | Media | Baixa

  /** 'odd_justa': a number, or "-" when not applicable. */
  datatype FairOdds = Odd(value: real) | NotApplicable

  /** 'probabilidade': f"{p}%" or f"Média esperada: {x}". */
  datatype Stated = Percent(p: real) | ExpectedMean(mean: real)

  datatype Tip = Tip(market: string, selection: string, probability: Stated, fairOdds: FairOdds, confidence: Confidence)

  /** The corner and card totals that the bundle's secondary metrics carry. */
  datatype Secondary = Secondary(expCornersTotal: real, expCardsTotal: real)

  /** Either the 'erro' entry, or the match label, the bundle and the tips. */
  datatype Suggestion =
    | Insufficient(erro: string)
    | Report(matchLabel: string, stats: Prediction, tips: seq<Tip>)

  const InsufficientData: string := "Dados insuficientes para análise."
  const Winner: string := "Vencedor"
  const Goals: string := "Gols"
  const Over25Selection: string := "Over 2.5 Gols"
  const BttsSelection: string := "Ambas Marcam: Sim"
  const CornersSelection: string := "Over 9.5 Cantos"
  const CardsSelection: string := "Over 3.5 Cartões"
  const CornersMarket: string := "Escanteios"
  const CardsMarket: string := "Cartões"

  /**
   * A probability-based tip, stating its percentage, with fair odds
   * `round(100 / p, 2)`: the break-even price to 2 places.
   */
  function PercentTip(market: string, selection: string, p: real, confidence: Confidence): (t: Tip)
    requires p > 0.0
    ensures t.market == market && t.selection == selection && t.confidence == confidence
    ensures t.probability == Percent(p) && t.fairOdds.Odd?
    ensures -0.005 <= t.fairOdds.value - 100.0 / p <= 0.005
  {
    assert Tolerance(2) == 0.005;
    Tip(market, selection, Percent(p), Odd(Round(100.0 / p, 2)), confidence)
  }

  /** Rule 1: the home side when its percentage reaches 55, otherwise the away side. */
  function WinnerTips(p: Prediction, homeTeam: string, awayTeam: string): (tips: seq<Tip>)
    ensures |tips| <= 1
    ensures |tips| == 1 <==> p.probHome >= 55.0 || p.probAway >= 55.0
    ensures |tips| == 1 ==> tips[0].market == Winner && tips[0].fairOdds.Odd? && tips[0].confidence != Baixa
  {
    if p.probHome >= 55.0 then
      [PercentTip(Winner, "Vitória " + homeTeam, p.probHome, if p.probHome > 65.0 then Alta else Media)]
    else if p.probAway >= 55.0 then
      [PercentTip(Winner, "Vitória " + awayTeam, p.probAway, if p.probAway > 65.0 then Alta else Media)]
    else []
  }

  /** The over-2.5 percentage: the grid cells with more than 2.5 goals, rounded to 1 place. */
  function Over25Percent(m: Matrix): real
    requires IsGrid(m)
  {
    Round(RegionSum(m, Over25) * 100.0, 1)
  }

  /** The both-teams-score percentage: the cells where both sides score, rounded to 1 place. */
  function BttsPercent(m: Matrix): real
    requires IsGrid(m)
  {
    Round(RegionSum(m, Btts) * 100.0, 1)
  }

  /** Rule 2. */
  function Over25Tips(pOver: real): (tips: seq<Tip>)
    ensures |tips| == if pOver >= 60.0 then 1 else 0
    ensures |tips| == 1 ==>
      && tips[0].market == Goals && tips[0].selection == Over25Selection && tips[0].probability == Percent(pOver)
      && (tips[0].confidence == Alta <==> pOver > 70.0) && tips[0].confidence != Baixa
  {
    if pOver >= 60.0 then [PercentTip(Goals, Over25Selection, pOver, if pOver > 70.0 then Alta else Media)]
    else []
  }

  /** Rule 3. */
  function BttsTips(pBtts: real): (tips: seq<Tip>)
    ensures |tips| == if pBtts >= 60.0 then 1 else 0
    ensures |tips| == 1 ==>
      && tips[0].market == Goals && tips[0].selection == BttsSelection && tips[0].probability == Percent(pBtts)
      && tips[0].confidence == Media
  {
    if pBtts >= 60.0 then [PercentTip(Goals, BttsSelection, pBtts, Media)] else []
  }

  /** Rule 4: informational, no odds. */
  function CornersTips(corners: real): (tips: seq<Tip>)
    ensures |tips| == if corners >= 10.5 then 1 else 0
    ensures |tips| == 1 ==>
      && tips[0].market == CornersMarket && tips[0].selection == CornersSelection
      && tips[0].probability == ExpectedMean(corners)
      && tips[0].fairOdds == NotApplicable && tips[0].confidence == Media
  {
    if corners >= 10.5 then [Tip(CornersMarket, CornersSelection, ExpectedMean(corners), NotApplicable, Media)]
    else []
  }

  /** Rule 5: informational, no odds. */
  function CardsTips(cards: real): (tips: seq<Tip>)
    ensures |tips| == if cards >= 4.5 then 1 else 0
    ensures |tips| == 1 ==>
      && tips[0].market == CardsMarket && tips[0].selection == CardsSelection
      && tips[0].probability == ExpectedMean(cards)
      && tips[0].fairOdds == NotApplicable && tips[0].confidence == Baixa
  {
    if cards >= 4.5 then [Tip(CardsMarket, CardsSelection, ExpectedMean(cards), NotApplicable, Baixa)]
    else []
  }

  /** The tips of rules 1 to 5, in rule order. */
  function AdviceTips(p: Prediction, homeTeam: string, awayTeam: string, sec: Secondary): (tips: seq<Tip>)
    requires IsGrid(p.scoreMatrix)
    ensures |tips| <= 5
    ensures forall i :: 0 <= i < |tips| ==> tips[i].market in {Winner, Goals, CornersMarket, CardsMarket}
  {
    WinnerTips(p, homeTeam, awayTeam)
      + Over25Tips(Over25Percent(p.scoreMatrix))
      + BttsTips(BttsPercent(p.scoreMatrix))
      + CornersTips(sec.expCornersTotal)
      + CardsTips(sec.expCardsTotal)
  }

  /** What `get_match_suggestion` returns for a prediction, or for its absence. */
  function Advice(prediction: Option<Prediction>, homeTeam: string, awayTeam: string, sec: Secondary): (r: Suggestion)
    requires prediction.Some? ==> IsGrid(prediction.value.scoreMatrix)
    ensures r.Insufficient? <==> prediction.None?
    ensures r.Insufficient? ==> r.erro == InsufficientData
    ensures r.Report? ==> r.stats == prediction.value && r.matchLabel == homeTeam + " vs " + awayTeam && |r.tips| <= 5
  {
    match prediction
    case None => Insufficient(InsufficientData)
    case Some(p) => Report(homeTeam + " vs " + awayTeam, p, AdviceTips(p, homeTeam, awayTeam, sec))
  }

  /** Rule 2's accumulator: the mass of the cells whose goal total exceeds 2.5. */
  method SumOver25(matrix: Matrix) returns (probOver25: real)
    requires IsGrid(matrix)
    ensures probOver25 == RegionSum(matrix, Over25)
  {
    probOver25 := 0.0;
    for h := 0 to K
      invariant probOver25 == GridSum(matrix, Over25, h)
    {
      for a := 0 to K
        invariant probOver25 == GridSum(matrix, Over25, h) + RowSum(matrix[h], h, Over25, a)
      {
        if (h + a) as real > 2.5 {
          probOver25 := probOver25 + matrix[h][a];
        }
      }
    }
  }

  /** Rule 3's accumulator: the mass of the cells from 1–1 up, where both sides score. */
  method SumBtts(matrix: Matrix) returns (probBtts: real)
    requires IsGrid(matrix)
    ensures probBtts == RegionSum(matrix, Btts)
  {
    probBtts := 0.0;
    assert GridSum(matrix, Btts, 1) == 0.0 by {
      NoCellsInRow(matrix[0], 0, Btts, K);
    }
    for h := 1 to K
      invariant probBtts == GridSum(matrix, Btts, h)
    {
      for a := 1 to K
        invariant probBtts == GridSum(matrix, Btts, h) + RowSum(matrix[h], h, Btts, a)
      {
        probBtts := probBtts + matrix[h][a];
      }
    }
  }

  /** The five rules, each appending at most one tip to the list. */
  method SuggestTips(pred: Prediction, homeTeam: string, awayTeam: string, sec: Secondary)
    returns (tips: seq<Tip>)
    requires IsGrid(pred.scoreMatrix)
    ensures tips == AdviceTips(pred, homeTeam, awayTeam, sec)
  {
    tips := [];

    // Rule 1: winner
    var probHome, probAway := pred.probHome, pred.probAway;
    if probHome >= 55.0 {
      tips := tips + [Tip(Winner, "Vitória " + homeTeam, Percent(probHome), Odd(Round(100.0 / probHome, 2)),
                          if probHome > 65.0 then Alta else Media)];
    } else if probAway >= 55.0 {
      tips := tips + [Tip(Winner, "Vitória " + awayTeam, Percent(probAway), Odd(Round(100.0 / probAway, 2)),
                          if probAway > 65.0 then Alta else Media)];
    }
    ghost var upTo1 := tips;
    assert upTo1 == WinnerTips(pred, homeTeam, awayTeam);

    // Rule 2: over 2.5 goals
    var matrix := pred.scoreMatrix;
    var probOver25 := SumOver25(matrix);
    probOver25 := Round(probOver25 * 100.0, 1);
    if probOver25 >= 60.0 {
      tips := tips + [Tip(Goals, Over25Selection, Percent(probOver25), Odd(Round(100.0 / probOver25, 2)),
                          if probOver25 > 70.0 then Alta else Media)];
    }
    ghost var upTo2 := tips;
    assert upTo2 == upTo1 + Over25Tips(Over25Percent(matrix));

    // Rule 3: both teams score
    var probBtts := SumBtts(matrix);
    probBtts := Round(probBtts * 100.0, 1);
    if probBtts >= 60.0 {
      tips := tips + [Tip(Goals, BttsSelection, Percent(probBtts), Odd(Round(100.0 / probBtts, 2)), Media)];
    }
    ghost var upTo3 := tips;
    assert upTo3 == upTo2 + BttsTips(BttsPercent(matrix));

    // Rule 4: corners
    var expCorners := sec.expCornersTotal;
    if expCorners >= 10.5 {
      tips := tips + [Tip(CornersMarket, CornersSelection, ExpectedMean(expCorners), NotApplicable, Media)];
    }
    ghost var upTo4 := tips;
    assert upTo4 == upTo3 + CornersTips(sec.expCornersTotal);

    // Rule 5: cards
    var expCards := sec.expCardsTotal;
    if expCards >= 4.5 {
      tips := tips + [Tip(CardsMarket, CardsSelection, ExpectedMean(expCards), NotApplicable, Baixa)];
    }
    assert tips == upTo4 + CardsTips(sec.expCardsTotal);
  }

  /**
   * `get_match_suggestion`: the 'erro' entry when the engine has no
   * prediction; otherwise the match label, the prediction unchanged as
   * 'stats', and the tips.
   */
  method GetMatchSuggestion(df: seq<MatchRow>, avgs: LeagueAvgs, pmf: Pmf, homeTeam: string, awayTeam: string,
                            sec: Secondary)
    returns (r: Suggestion)
    requires PositiveAverages(avgs)
    ensures r == Advice(PredictionOf(df, avgs, pmf, homeTeam, awayTeam), homeTeam, awayTeam, sec)
  {
    var prediction := PredictMatch(df, avgs, pmf, homeTeam, awayTeam);
    if prediction.None? {
      return Insufficient(InsufficientData);
    }
    var tips := SuggestTips(prediction.value, homeTeam, awayTeam, sec);
    return Report(homeTeam + " vs " + awayTeam, prediction.value, tips);
  }

  /** A row none of whose cells lies in `reg` contributes nothing. */
  lemma {:induction false} NoCellsInRow(row: seq<real>, h: int, reg: Region, n: nat)
    requires n <= |row|
    requires forall a :: 0 <= a < n ==> !In(reg, h, a)
    ensures RowSum(row, h, reg, n) == 0.0
  {
    if n > 0 {
      NoCellsInRow(row, h, reg, n - 1);
    }
  }
}

module PredictorProperties {
  import opened Wrappers
  import opened Rounding
  import opened Matches
  import opened ScoreGrid
  import opened Analyzer
  import opened Predictor

  /** The rule (1 to 5) that emits a tip of this market and selection. */
  function RuleOf(t: Tip): nat {
    if t.market == Winner then 1
    else if t.market == Goals && t.selection == Over25Selection then 2
    else if t.market == Goals && t.selection == BttsSelection then 3
    else if t.market == CornersMarket then 4
    else if t.market == CardsMarket then 5
    else 0
  }

  predicate InRuleOrder(tips: seq<Tip>) {
    forall i, j :: 0 <= i < j < |tips| ==> RuleOf(tips[i]) < RuleOf(tips[j])
  }

  /** Appending at most one tip of rule `n` after tips of earlier rules keeps the order. */
  lemma AppendRule(s: seq<Tip>, piece: seq<Tip>, n: nat)
    requires n >= 1 && InRuleOrder(s) && forall t :: t in s ==> 1 <= RuleOf(t) < n
    requires |piece| <= 1 && forall t :: t in piece ==> RuleOf(t) == n
    ensures InRuleOrder(s + piece) && forall t :: t in s + piece ==> 1 <= RuleOf(t) <= n
  {
    forall t | t in s + piece ensures 1 <= RuleOf(t) <= n {
      assert t in s || t in piece;
    }
    forall i, j | 0 <= i < j < |s + piece| ensures RuleOf((s + piece)[i]) < RuleOf((s + piece)[j]) {
      if j >= |s| {
        assert (s + piece)[j] in piece;
        assert (s + piece)[i] in s;
      }
    }
  }

  /**
   * Tips come in rule order 1 → 5, each rule at most once, so there are at
   * most five of them and never two winner tips.
   */
  lemma TipsInRuleOrder(p: Prediction, homeTeam: string, awayTeam: string, sec: Secondary)
    requires IsGrid(p.scoreMatrix)
    ensures var tips := AdviceTips(p, homeTeam, awayTeam, sec);
      && InRuleOrder(tips)
      && |tips| <= 5
      && (forall t :: t in tips ==> 1 <= RuleOf(t) <= 5)
      && (forall i, j :: 0 <= i < j < |tips| ==> !(tips[i].market == Winner && tips[j].market == Winner))
  {
    var w := WinnerTips(p, homeTeam, awayTeam);
    var o := Over25Tips(Over25Percent(p.scoreMatrix));
    var b := BttsTips(BttsPercent(p.scoreMatrix));
    var c := CornersTips(sec.expCornersTotal);
    var d := CardsTips(sec.expCardsTotal);
    AppendRule([], w, 1);
    assert [] + w == w;
    AppendRule(w, o, 2);
    AppendRule(w + o, b, 3);
    AppendRule(w + o + b, c, 4);
    AppendRule(w + o + b + c, d, 5);
    var tips := AdviceTips(p, homeTeam, awayTeam, sec);
    assert tips == w + o + b + c + d;
  }

  /**
   * The winner rule is an if/elif: the home side is tipped whenever its
   * percentage reaches 55, even if the away side's does too; the away side
   * only when the home side's does not; nobody when neither does.
   */
  lemma WinnerPrecedence(p: Prediction, homeTeam: string, awayTeam: string, sec: Secondary)
    requires IsGrid(p.scoreMatrix)
    ensures var tips := AdviceTips(p, homeTeam, awayTeam, sec);
      && (p.probHome >= 55.0 ==>
            |tips| > 0 && tips[0].market == Winner && tips[0].selection == "Vitória " + homeTeam
            && tips[0].probability == Percent(p.probHome))
      && (p.probHome < 55.0 && p.probAway >= 55.0 ==>
            |tips| > 0 && tips[0].market == Winner && tips[0].selection == "Vitória " + awayTeam
            && tips[0].probability == Percent(p.probAway))
      && (p.probHome < 55.0 && p.probAway < 55.0 ==> forall t :: t in tips ==> t.market != Winner)
  {
  }

  /**
   * A tip with odds states a percentage of at least 55, and its odds are
   * 100 / p rounded to 2 places: odds × p is 100 up to the rounding step.
   */
  predicate PricedFairly(t: Tip) {
    t.fairOdds.Odd? ==>
      && t.probability.Percent?
      && t.probability.p >= 55.0
      && -0.005 <= t.fairOdds.value - 100.0 / t.probability.p <= 0.005
      && -0.005 * t.probability.p <= t.fairOdds.value * t.probability.p - 100.0 <= 0.005 * t.probability.p
  }

  lemma PercentTipPricedFairly(market: string, selection: string, p: real, confidence: Confidence)
    requires p >= 55.0
    ensures PricedFairly(PercentTip(market, selection, p, confidence))
  {
    var odds := Round(100.0 / p, 2);
    assert Tolerance(2) == 0.005;
    OddsTimesPercent(odds, p);
  }

  /** Odds within 0.005 of 100 / p give a payout within 0.005 × p of 100. */
  lemma OddsTimesPercent(odds: real, p: real)
    requires p > 0.0 && -0.005 <= odds - 100.0 / p <= 0.005
    ensures -0.005 * p <= odds * p - 100.0 <= 0.005 * p
  {
    var q := 100.0 / p;
    assert q * p == 100.0;
    var e := odds - q;
    assert e * p == odds * p - q * p;
    ScaleBound(e, 0.005, p);
  }

  lemma ScaleBound(e: real, bound: real, p: real)
    requires p > 0.0 && -bound <= e <= bound
    ensures -bound * p <= e * p <= bound * p
  {
    assert (bound - e) * p >= 0.0;
    assert (e + bound) * p >= 0.0;
  }

  /**
   * Every tip with odds is priced fairly, and exactly the tips of rules 1 to 3
   * carry odds. Odds are only computed from a percentage of at least 55, so
   * 100 / p never divides by zero.
   */
  lemma FairOddsBreakEven(p: Prediction, homeTeam: string, awayTeam: string, sec: Secondary)
    requires IsGrid(p.scoreMatrix)
    ensures forall t :: t in AdviceTips(p, homeTeam, awayTeam, sec) ==>
      PricedFairly(t) && (t.fairOdds.Odd? <==> RuleOf(t) <= 3)
  {
    var w := WinnerTips(p, homeTeam, awayTeam);
    var pOver, pBtts := Over25Percent(p.scoreMatrix), BttsPercent(p.scoreMatrix);
    var o := Over25Tips(pOver);
    var b := BttsTips(pBtts);
    var c := CornersTips(sec.expCornersTotal);
    var d := CardsTips(sec.expCardsTotal);
    if p.probHome >= 55.0 {
      PercentTipPricedFairly(Winner, "Vitória " + homeTeam, p.probHome, if p.probHome > 65.0 then Alta else Media);
    } else if p.probAway >= 55.0 {
      PercentTipPricedFairly(Winner, "Vitória " + awayTeam, p.probAway, if p.probAway > 65.0 then Alta else Media);
    }
    if pOver >= 60.0 {
      PercentTipPricedFairly(Goals, Over25Selection, pOver, if pOver > 70.0 then Alta else Media);
    }
    if pBtts >= 60.0 {
      PercentTipPricedFairly(Goals, BttsSelection, pBtts, Media);
    }
    var tips := AdviceTips(p, homeTeam, awayTeam, sec);
    assert tips == w + o + b + c + d;
    forall t | t in tips ensures PricedFairly(t) && (t.fairOdds.Odd? <==> RuleOf(t) <= 3) {
      assert t in w || t in o || t in b || t in c || t in d;
    }
  }

  /**
   * Confidence tiers: winner "Alta" exactly above 65%, over 2.5 "Alta"
   * exactly above 70%, both-teams-score and corners always "Média", cards
   * always "Baixa"; corners and cards carry no odds.
   */
  lemma ConfidenceTiers(p: Prediction, homeTeam: string, awayTeam: string, sec: Secondary)
    requires IsGrid(p.scoreMatrix)
    ensures forall t :: t in AdviceTips(p, homeTeam, awayTeam, sec) ==>
      && (RuleOf(t) == 1 ==> t.probability.Percent? && t.confidence != Baixa
                             && (t.confidence == Alta <==> t.probability.p > 65.0))
      && (RuleOf(t) == 2 ==> t.probability.Percent? && t.confidence != Baixa
                             && (t.confidence == Alta <==> t.probability.p > 70.0))
      && (RuleOf(t) == 3 ==> t.confidence == Media)
      && (RuleOf(t) == 4 ==> t.confidence == Media && t.fairOdds == NotApplicable)
      && (RuleOf(t) == 5 ==> t.confidence == Baixa && t.fairOdds == NotApplicable)
  {
  }

  /**
   * Which rules fire: over 2.5 exactly when the over-2.5 percentage of the grid
   * reaches 60, both-teams-score likewise, corners exactly when the corner
   * total reaches 10.5 and cards exactly when the card total reaches 4.5;
   * each tip states the figure it was decided on, and the corners and cards
   * tips back the over on 9.5 corners and on 3.5 cards.
   */
  lemma RulesFireAtThresholds(p: Prediction, homeTeam: string, awayTeam: string, sec: Secondary)
    requires IsGrid(p.scoreMatrix)
    ensures var tips := AdviceTips(p, homeTeam, awayTeam, sec);
      && ((exists t :: t in tips && RuleOf(t) == 2) <==> Over25Percent(p.scoreMatrix) >= 60.0)
      && ((exists t :: t in tips && RuleOf(t) == 3) <==> BttsPercent(p.scoreMatrix) >= 60.0)
      && ((exists t :: t in tips && RuleOf(t) == 4) <==> sec.expCornersTotal >= 10.5)
      && ((exists t :: t in tips && RuleOf(t) == 5) <==> sec.expCardsTotal >= 4.5)
      && (forall t :: t in tips && RuleOf(t) == 2 ==> t.probability == Percent(Over25Percent(p.scoreMatrix)))
      && (forall t :: t in tips && RuleOf(t) == 3 ==> t.probability == Percent(BttsPercent(p.scoreMatrix)))
      && (forall t :: t in tips && RuleOf(t) == 4 ==>
            t.selection == CornersSelection && t.probability == ExpectedMean(sec.expCornersTotal))
      && (forall t :: t in tips && RuleOf(t) == 5 ==>
            t.selection == CardsSelection && t.probability == ExpectedMean(sec.expCardsTotal))
  {
    var w := WinnerTips(p, homeTeam, awayTeam);
    var o := Over25Tips(Over25Percent(p.scoreMatrix));
    var b := BttsTips(BttsPercent(p.scoreMatrix));
    var c := CornersTips(sec.expCornersTotal);
    var d := CardsTips(sec.expCardsTotal);
    var tips := AdviceTips(p, homeTeam, awayTeam, sec);
    assert tips == w + o + b + c + d;
    forall t | t in tips ensures t in w || t in o || t in b || t in c || t in d {}
    assert forall t :: t in w ==> RuleOf(t) == 1;
    if Over25Percent(p.scoreMatrix) >= 60.0 { assert o[0] in tips; }
    if BttsPercent(p.scoreMatrix) >= 60.0 { assert b[0] in tips; }
    if sec.expCornersTotal >= 10.5 { assert c[0] in tips; }
    if sec.expCardsTotal >= 4.5 { assert d[0] in tips; }
  }

  /**
   * The advisor reports insufficient data, with no tips, exactly when one of
   * the two teams lacks home or away rows; otherwise it hands back the
   * engine's prediction unchanged as its 'stats'.
   */
  lemma InsufficientIffMissingHistory(df: seq<MatchRow>, avgs: LeagueAvgs, pmf: Pmf,
                                      homeTeam: string, awayTeam: string, sec: Secondary)
    requires PositiveAverages(avgs)
    ensures var r := Advice(PredictionOf(df, avgs, pmf, homeTeam, awayTeam), homeTeam, awayTeam, sec);
      && (r.Insufficient? <==>
            || |Select(df, homeTeam, AtHome)| == 0 || |Select(df, homeTeam, Away)| == 0
            || |Select(df, awayTeam, AtHome)| == 0 || |Select(df, awayTeam, Away)| == 0)
      && (r.Insufficient? ==> r.erro == InsufficientData)
      && (r.Report? ==> Some(r.stats) == PredictionOf(df, avgs, pmf, homeTeam, awayTeam)
                        && r.matchLabel == homeTeam + " vs " + awayTeam)
  {
  }
}

/**
 * The advisor as the repository's code has it. Rule 4 reads the bundle's
 * 'secondary_metrics' entry, but the bundle built by the engine has no such
 * entry, so every fixture with enough history ends in a KeyError. The rest
 * of the model uses `Predictor.Advice`, which takes the corner and card
 * totals as an explicit input instead.
 */
module SecondaryMetricsFinding {
  import opened Wrappers
  import opened Matches
  import opened ScoreGrid
  import opened Analyzer
  import opened Predictor

  /** The entries of the bundle the engine returns for a fixture. */
  const PredictionKeys: set<string> :=
    {"home_team", "away_team", "lambda_home", "lambda_away", "prob_home", "prob_draw", "prob_away", "score_matrix"}

  const SecondaryKey: string := "secondary_metrics"

  /** A call either returns a suggestion or raises a missing-key error. */
  datatype Outcome = Returned(suggestion: Suggestion) | KeyError(key: string)

  /**
   * The advisor as written, given the entries of the bundle it reads: the
   * error entry without a prediction; with one, rules 1 to 3 run and then
   * 'secondary_metrics' is looked up in the bundle, which raises when the
   * bundle has no such entry and otherwise goes on with the corner and card
   * means it holds.
   */
  function AdviceAsWritten(bundle: set<string>, prediction: Option<Prediction>, homeTeam: string, awayTeam: string,
                           sec: Secondary): (o: Outcome)
    requires prediction.Some? ==> IsGrid(prediction.value.scoreMatrix)
    ensures prediction.None? ==> o == Returned(Insufficient(InsufficientData))
    ensures prediction.Some? && SecondaryKey !in bundle ==> o == KeyError(SecondaryKey)
    ensures prediction.Some? && SecondaryKey in bundle ==> o == Returned(Advice(prediction, homeTeam, awayTeam, sec))
  {
    match prediction
    case None => Returned(Insufficient(InsufficientData))
    case Some(_) =>
      if SecondaryKey in bundle then Returned(Advice(prediction, homeTeam, awayTeam, sec))
      else KeyError(SecondaryKey)
  }

  /** As written, the advisor never produces a tip list. */
  lemma AsWrittenNeverReports(df: seq<MatchRow>, avgs: LeagueAvgs, pmf: Pmf, homeTeam: string, awayTeam: string,
                              sec: Secondary)
    requires PositiveAverages(avgs)
    ensures var o := AdviceAsWritten(PredictionKeys, PredictionOf(df, avgs, pmf, homeTeam, awayTeam), homeTeam, awayTeam, sec);
      !(o.Returned? && o.suggestion.Report?)
  {
  }

  function Fixture(date: int, home: string, away: string): MatchRow {
    MatchRow(date, home, away, 1, 1, None, None, None, None, None, None, None, None)
  }

  /**
   * Two clubs that have met once at each ground: as written the advisor raises
   * a KeyError, while the corrected advisor reports on the fixture.
   */
  lemma TwoClubLeagueRaises(pmf: Pmf, sec: Secondary)
    ensures
      var df := [Fixture(1, "A", "B"), Fixture(2, "B", "A")];
      var avgs := LeagueAvgs(1.0, 1.0);
      && AdviceAsWritten(PredictionKeys, PredictionOf(df, avgs, pmf, "A", "B"), "A", "B", sec) == KeyError(SecondaryKey)
      && Advice(PredictionOf(df, avgs, pmf, "A", "B"), "A", "B", sec).Report?
  {
    var df := [Fixture(1, "A", "B"), Fixture(2, "B", "A")];
    assert df[..1] == [Fixture(1, "A", "B")];
    assert |Select(df, "A", AtHome)| == 1 && |Select(df, "A", Away)| == 1;
    assert |Select(df, "B", AtHome)| == 1 && |Select(df, "B", Away)| == 1;
    var prediction := PredictionOf(df, LeagueAvgs(1.0, 1.0), pmf, "A", "B");
    assert prediction.Some?;
    assert SecondaryKey !in PredictionKeys;
  }
}

=== FILE: processor.dfy ===
/**
 * The data processor: column selection and renaming of a league's file, the
 * list of teams, and a team's recent-form averages.
 */
module Processor {
  import opened Wrappers
  import opened Rounding
  import opened Matches
  import opened TextOrder

  /** The columns the processor keeps, in order, with their new names. */
  const ColMap: seq<(string, string)> := [
    ("Date", "data"), ("HomeTeam", "mandante"), ("AwayTeam", "visitante"),
    ("FTHG", "gols_mandante"), ("FTAG", "gols_visitante"),
    ("FTR", "resultado"),
    ("HST", "chutes_alvo_mandante"), ("AST", "chutes_alvo_visitante"),
    ("HC", "cantos_mandante"), ("AC", "cantos_visitante"),
    ("HY", "amarelos_mandante"), ("AY", "amarelos_visitante"),
    ("HR", "vermelhos_mandante"), ("AR", "vermelhos_visitante")
  ]

  /**
   * The entries of `cm` whose source column the file has: a column missing
   * from the file is skipped rather than raising an error.
   */
  function KeptColumns(cm: seq<(string, string)>, header: seq<string>): (kept: seq<(string, string)>)
    ensures forall c :: c in kept <==> c in cm && c.0 in header
    ensures |kept| <= |cm|
    ensures IsSubsequence(kept, cm)
  {
    if |cm| == 0 then []
    else if cm[0].0 in header then
      var rest := KeptColumns(cm[1..], header);
      assert ([cm[0]] + rest)[1..] == rest;
      [cm[0]] + rest
    else
      KeptColumns(cm[1..], header)
  }

  /** The new names of the kept columns, in the same order. */
  function RenamedColumns(kept: seq<(string, string)>): (cols: seq<string>)
    ensures |cols| == |kept| && forall i :: 0 <= i < |kept| ==> cols[i] == kept[i].1
  {
    if |kept| == 0 then [] else [kept[0].1] + RenamedColumns(kept[1..])
  }

  /**
   * The rows agree with the header: a figure whose column the file lacks is
   * missing from every row (and so counts as 0 in the tallies).
   */
  predicate FiguresMatchHeader(file: CsvFile) {
    forall r :: r in file.rows ==>
      && ("HST" !in file.header ==> r.homeShotsOnTarget.None?)
      && ("AST" !in file.header ==> r.awayShotsOnTarget.None?)
      && ("HC" !in file.header ==> r.homeCorners.None?)
      && ("AC" !in file.header ==> r.awayCorners.None?)
      && ("HY" !in file.header ==> r.homeYellows.None?)
      && ("AY" !in file.header ==> r.awayYellows.None?)
      && ("HR" !in file.header ==> r.homeReds.None?)
      && ("AR" !in file.header ==> r.awayReds.None?)
  }

  /** The cleaned dataset: its renamed columns and its rows. */
  datatype Frame = Frame(columns: seq<string>, rows: seq<MatchRow>)

  /**
   * Keeps the mapped columns the file has, under their new names, and every
   * row: a column is in the result exactly when it is the new name of a mapped
   * column present in the header.
   */
  function Clean(file: CsvFile): (f: Frame)
    ensures f.rows == file.rows
    ensures |f.columns| <= |ColMap|
    ensures forall c :: c in f.columns <==> exists p :: p in ColMap && p.0 in file.header && p.1 == c
  {
    var kept := KeptColumns(ColMap, file.header);
    var cols := RenamedColumns(kept);
    assert forall c :: c in cols <==> exists p :: p in kept && p.1 == c by {
      forall c ensures c in cols <==> exists p :: p in kept && p.1 == c {
        if c in cols {
          var i :| 0 <= i < |cols| && cols[i] == c;
          assert kept[i] in kept;
        }
        if exists p :: p in kept && p.1 == c {
          var p :| p in kept && p.1 == c;
          var i :| 0 <= i < |kept| && kept[i] == p;
          assert cols[i] == c;
        }
      }
    }
    Frame(cols, file.rows)
  }

  function HomeTeams(rows: seq<MatchRow>): (names: seq<string>)
    ensures |names| == |rows| && forall i :: 0 <= i < |rows| ==> names[i] == rows[i].homeTeam
  {
    if |rows| == 0 then [] else [rows[0].homeTeam] + HomeTeams(rows[1..])
  }

  // ----- most recent rows by date -----

  predicate DateSorted(s: seq<MatchRow>) {
    forall i, j :: 0 <= i < j < |s| ==> s[i].date <= s[j].date
  }

  function InsertByDate(x: MatchRow, s: seq<MatchRow>): (r: seq<MatchRow>)
    requires DateSorted(s)
    ensures DateSorted(r) && multiset(r) == multiset(s) + multiset{x}
  {
    if |s| == 0 then [x]
    else if x.date <= s[0].date then [x] + s
    else
      var rest := InsertByDate(x, s[1..]);
      HeadStaysFirst(x, s, rest);
      [s[0]] + rest
  }

  /** Inserting a later row behind the head keeps the head first. */
  lemma HeadStaysFirst(x: MatchRow, s: seq<MatchRow>, rest: seq<MatchRow>)
    requires DateSorted(s) && |s| > 0 && s[0].date < x.date
    requires DateSorted(rest) && multiset(rest) == multiset(s[1..]) + multiset{x}
    ensures DateSorted([s[0]] + rest)
    ensures multiset([s[0]] + rest) == multiset(s) + multiset{x}
  {
    assert s == [s[0]] + s[1..];
    forall j | 0 <= j < |rest| ensures s[0].date <= rest[j].date {
      assert rest[j] in multiset(rest);
      if rest[j] != x {
        assert rest[j] in multiset(s[1..]);
      }
    }
  }

  /** `sort_values('data')`: a date-ordered rearrangement of the rows. */
  function SortByDate(s: seq<MatchRow>): (r: seq<MatchRow>)
    ensures DateSorted(r) && multiset(r) == multiset(s)
  {
    if |s| == 0 then []
    else
      assert s == [s[0]] + s[1..];
      InsertByDate(s[0], SortByDate(s[1..]))
  }

  function Min(a: int, b: int): int { if a <= b then a else b }

  /**
   * pandas' `tail(n)`: the last `n` rows (all of them when there are fewer);
   * for a negative `n`, every row but the first `-n`.
   */
  function Tail(s: seq<MatchRow>, n: int): (t: seq<MatchRow>)
    ensures n >= 0 ==> |t| == Min(n, |s|)
    ensures n < 0 ==> |t| == |s| - Min(-n, |s|)
    ensures t == s[|s| - |t|..]
  {
    if n >= 0 then s[|s| - Min(n, |s|)..] else s[Min(-n, |s|)..]
  }

  /** `matches.sort_values('data').tail(games)`. */
  function LatestByDate(matches: seq<MatchRow>, games: int): seq<MatchRow> {
    Tail(SortByDate(matches), games)
  }

  // ----- per-team statistics -----

  /** 'home' keeps the team's home rows, 'away' its away rows, anything else both. */
  function VenueOf(location: string): (v: Venue)
    ensures v == AtHome <==> location == "home"
    ensures v == Away <==> location == "away"
    ensures v == Either <==> location != "home" && location != "away"
  {
    if location == "home" then AtHome else if location == "away" then Away else Either
  }

  /** The rows `get_team_stats` aggregates. */
  function KeptRows(rows: seq<MatchRow>, team: string, games: int, location: string): seq<MatchRow> {
    LatestByDate(Select(rows, team, VenueOf(location)), games)
  }

  /** The report of `get_team_stats`: each total divided by `games`, to 2 places. */
  datatype TeamReport = TeamReport(
    team: string,               // 'time'
    filter: string,             // 'filtro'
    avgGoalsFor: real,          // 'media_gols_feitos'
    avgGoalsAgainst: real,      // 'media_gols_sofridos'
    avgShotsOnTarget: real,     // 'media_chutes_alvo'
    avgCorners: real,           // 'media_cantos'
    avgCards: real)             // 'media_cartoes'

  function Digit(d: nat): char
    requires d < 10
  {
    ('0' as int + d) as char
  }

  /** The number a string of decimal digits denotes. */
  function DigitsValue(s: string): int {
    if |s| == 0 then 0 else DigitsValue(s[..|s| - 1]) * 10 + (s[|s| - 1] as int - '0' as int)
  }

  predicate AllDigits(s: string) {
    forall i :: 0 <= i < |s| ==> '0' <= s[i] <= '9'
  }

  /** The decimal numeral of `n`: digits only, no leading zero, denoting `n`. */
  function NatToString(n: nat): (s: string)
    ensures |s| > 0 && AllDigits(s)
    ensures |s| > 1 ==> s[0] != '0'
    ensures DigitsValue(s) == n
  {
    if n < 10 then [Digit(n)]
    else
      var front := NatToString(n / 10);
      assert (front + [Digit(n % 10)])[..|front|] == front;
      front + [Digit(n % 10)]
  }

  /** `str(n)`: a minus sign before the numeral of a negative number. */
  function IntToString(n: int): (s: string)
    ensures n >= 0 ==> AllDigits(s) && DigitsValue(s) == n
    ensures n < 0 ==> |s| > 1 && s[0] == '-' && AllDigits(s[1..]) && DigitsValue(s[1..]) == -n
  {
    if n < 0 then
      assert ("-" + NatToString(-n))[1..] == NatToString(-n);
      "-" + NatToString(-n)
    else NatToString(n)
  }

  const LabelHead: string := "Últimos "

  /** f"Últimos {games} jogos ({location})": the numeral of `games`, then the location in brackets. */
  function FilterLabel(games: int, location: string): (text: string)
    ensures var tail := " jogos (" + location + ")";
      && |text| == |LabelHead| + |IntToString(games)| + |tail|
      && text[..|LabelHead|] == LabelHead
      && text[|LabelHead|..|text| - |tail|] == IntToString(games)
      && text[|text| - |tail|..] == tail
  {
    var numeral, tail := IntToString(games), " jogos (" + location + ")";
    ThreeParts(LabelHead, numeral, tail);
    LabelHead + numeral + tail
  }

  lemma ThreeParts(a: string, b: string, c: string)
    ensures |a + b + c| == |a| + |b| + |c|
    ensures (a + b + c)[..|a|] == a
    ensures (a + b + c)[|a|..|a| + |b|] == b
    ensures (a + b + c)[|a| + |b|..] == c
  {
  }

  /** `round(total / games, 2)`: within half a cent of the exact quotient, and not negative when neither is. */
  function Average(total: int, games: int): (avg: real)
    requires games != 0
    ensures -0.005 <= avg - total as real / games as real <= 0.005
    ensures total >= 0 && games > 0 ==> avg >= 0.0
  {
    assert Pow10(2) == 100;
    Round(total as real / games as real, 2)
  }

  /** What `get_team_stats` returns on a loaded dataset. */
  function TeamStatsOf(rows: seq<MatchRow>, team: string, games: int, location: string): (r: Option<TeamReport>)
    ensures r.None? <==> |KeptRows(rows, team, games, location)| == 0
    ensures r.Some? ==> games != 0
  {
    var kept := KeptRows(rows, team, games, location);
    if |kept| == 0 then None
    else
      Some(TeamReport(team, FilterLabel(games, location),
        Average(SumOf(kept, GoalsFor(team)), games),
        Average(SumOf(kept, GoalsAgainst(team)), games),
        Average(SumOf(kept, ShotsOnTarget(team)), games),
        Average(SumOf(kept, Corners(team)), games),
        Average(SumOf(kept, Cards(team)), games)))
  }

  /** The 'stats' dictionary accumulated row by row. */
  datatype Tally = Tally(games: int, goalsFor: int, goalsAgainst: int, shotsOnTarget: int, corners: int, cards: int)

  /**
   * The loop of `get_team_stats`: each row's figures go to the team's side
   * of the tally, the home side's when the team is the home side, else the
   * away side's; a missing column contributes 0.
   */
  method TallyRows(matches: seq<MatchRow>, team: string) returns (stats: Tally)
    ensures stats.games == |matches|
    ensures stats.goalsFor == SumOf(matches, GoalsFor(team))
    ensures stats.goalsAgainst == SumOf(matches, GoalsAgainst(team))
    ensures stats.shotsOnTarget == SumOf(matches, ShotsOnTarget(team))
    ensures stats.corners == SumOf(matches, Corners(team))
    ensures stats.cards == SumOf(matches, Cards(team))
  {
    stats := Tally(|matches|, 0, 0, 0, 0, 0);
    for i := 0 to |matches|
      invariant stats.games == |matches|
      invariant stats.goalsFor == SumOf(matches[..i], GoalsFor(team))
      invariant stats.goalsAgainst == SumOf(matches[..i], GoalsAgainst(team))
      invariant stats.shotsOnTarget == SumOf(matches[..i], ShotsOnTarget(team))
      invariant stats.corners == SumOf(matches[..i], Corners(team))
      invariant stats.cards == SumOf(matches[..i], Cards(team))
    {
      var row := matches[i];
      assert matches[..i + 1][..i] == matches[..i];
      if row.homeTeam == team {
        stats := stats.(
          goalsFor := stats.goalsFor + row.homeGoals,
          goalsAgainst := stats.goalsAgainst + row.awayGoals,
          shotsOnTarget := stats.shotsOnTarget + row.homeShotsOnTarget.GetOr(0),
          corners := stats.corners + row.homeCorners.GetOr(0),
          cards := stats.cards + row.homeYellows.GetOr(0) + row.homeReds.GetOr(0));
      } else {
        stats := stats.(
          goalsFor := stats.goalsFor + row.awayGoals,
          goalsAgainst := stats.goalsAgainst + row.homeGoals,
          shotsOnTarget := stats.shotsOnTarget + row.awayShotsOnTarget.GetOr(0),
          corners := stats.corners + row.awayCorners.GetOr(0),
          cards := stats.cards + row.awayYellows.GetOr(0) + row.awayReds.GetOr(0));
      }
    }
    assert matches[..|matches|] == matches;
  }

  /** The processor's state: where its file lies and the cleaned dataset, if the file was found. */
  class DataProcessor {
    var rawDataPath: string
    var df: Option<Frame>

    /** Builds the processor and loads `file`, what reading `rawDataPath` gave (`None`: not found). */
    constructor (file: Option<CsvFile>, rawDataPath: string := "data/premier_league_2526.csv")
      requires file.Some? ==> FiguresMatchHeader(file.value)
      ensures this.rawDataPath == rawDataPath
      ensures df == if file.Some? then Some(Clean(file.value)) else None
    {
      this.rawDataPath := rawDataPath;
      df := None;
      new;
      var _ := LoadAndClean(file);
    }

    /**
     * `load_and_clean`: on a found file, keeps and renames the mapped columns;
     * on a missing one, leaves the dataset as it was and returns `None`.
     */
    method LoadAndClean(file: Option<CsvFile>) returns (r: Option<Frame>)
      requires file.Some? ==> FiguresMatchHeader(file.value)
      modifies this`df
      ensures file.None? ==> df == old(df) && r.None?
      ensures file.Some? ==> df == Some(Clean(file.value)) && r == df
    {
      if file.None? {
        return None;
      }
      var available := KeptColumns(ColMap, file.value.header);
      df := Some(Frame(RenamedColumns(available), file.value.rows));
      return df;
    }

    /** `listar_times`: the distinct home-side names in increasing order, none without a dataset. */
    function ListTeams(): (teams: seq<string>)
      reads this
      ensures df.None? ==> teams == []
      ensures StrictlySorted(teams)
      ensures df.Some? ==> forall t :: t in teams <==> exists r :: r in df.value.rows && r.homeTeam == t
    {
      if df.None? then []
      else
        var names := HomeTeams(df.value.rows);
        assert forall t :: (exists r :: r in df.value.rows && r.homeTeam == t) ==> t in names by {
          forall t | exists r :: r in df.value.rows && r.homeTeam == t ensures t in names {
            var r :| r in df.value.rows && r.homeTeam == t;
            var i :| 0 <= i < |df.value.rows| && df.value.rows[i] == r;
            assert names[i] == t;
          }
        }
        SortedUnique(names)
    }

    /**
     * `get_team_stats`: the team's rows at `location`, the latest `games` of
     * them by date, their figures attributed to the team row by row, and each
     * total averaged over `games`.
     */
    method GetTeamStats(team: string, games: int := 5, location: string := "all") returns (r: Option<TeamReport>)
      ensures df.None? ==> r.None?
      ensures df.Some? ==> r == TeamStatsOf(df.value.rows, team, games, location)
    {
      if df.None? {
        return None;
      }
      var matches := KeptRows(df.value.rows, team, games, location);
      if |matches| == 0 {
        return None;
      }
      var stats := TallyRows(matches, team);
      r := Some(TeamReport(team, FilterLabel(games, location),
        Average(stats.goalsFor, games),
        Average(stats.goalsAgainst, games),
        Average(stats.shotsOnTarget, games),
        Average(stats.corners, games),
        Average(stats.cards, games)));
    }
  }
}

module ProcessorProperties {
  import opened Matches
  import opened Processor

  /**
   * A file with only the five mandatory columns is cleaned without error to
   * exactly their five new names; the optional columns are simply absent.
   */
  lemma MandatoryColumnsOnly(file: CsvFile)
    requires file.header == ["Date", "HomeTeam", "AwayTeam", "FTHG", "FTAG"]
    ensures var cols := Clean(file).columns;
      && |cols| == 5
      && cols[0] == "data" && cols[1] == "mandante" && cols[2] == "visitante"
      && cols[3] == "gols_mandante" && cols[4] == "gols_visitante"
    ensures Clean(file).rows == file.rows
  {
    var header := file.header;
    var mandatory := [("Date", "data"), ("HomeTeam", "mandante"), ("AwayTeam", "visitante"),
      ("FTHG", "gols_mandante"), ("FTAG", "gols_visitante")];
    assert ColMap[..5] == mandatory;
    assert forall i :: 0 <= i < 5 ==> ColMap[i].0 in header by {
      assert forall i :: 0 <= i < 5 ==> ColMap[i].0 == header[i];
    }
    OptionalColumnsAbsent(header);
    EmptyWhenNoneKept(ColMap[5..], header);
    KeepPrefix(ColMap, header, 5);
    assert KeptColumns(ColMap, header) == mandatory;
    var cols := RenamedColumns(mandatory);
    assert Clean(file).columns == cols;
    assert |cols| == 5 && cols[0] == "data" && cols[1] == "mandante" && cols[2] == "visitante";
    assert cols[3] == "gols_mandante" && cols[4] == "gols_visitante";
  }

  lemma OptionalColumnsAbsent(header: seq<string>)
    requires header == ["Date", "HomeTeam", "AwayTeam", "FTHG", "FTAG"]
    ensures forall c :: c in ColMap[5..] ==> c.0 !in header
  {
    var optional := ColMap[5..];
    assert optional == [("FTR", "resultado"),
      ("HST", "chutes_alvo_mandante"), ("AST", "chutes_alvo_visitante"),
      ("HC", "cantos_mandante"), ("AC", "cantos_visitante"),
      ("HY", "amarelos_mandante"), ("AY", "amarelos_visitante"),
      ("HR", "vermelhos_mandante"), ("AR", "vermelhos_visitante")];
    forall c | c in optional ensures c.0 !in header {
      assert |c.0| <= 3;
      assert c.0[0] in {'F', 'H', 'A'};
      assert c.0 != "FTHG" && c.0 != "FTAG" && c.0 != "Date";
      assert c.0 != "HomeTeam" && c.0 != "AwayTeam";
    }
  }

  lemma EmptyWhenNoneKept(cm: seq<(string, string)>, header: seq<string>)
    requires forall c :: c in cm ==> c.0 !in header
    ensures KeptColumns(cm, header) == []
  {
  }

  lemma {:induction false} KeepPrefix(cm: seq<(string, string)>, header: seq<string>, n: nat)
    requires n <= |cm| && forall i :: 0 <= i < n ==> cm[i].0 in header
    requires KeptColumns(cm[n..], header) == []
    ensures KeptColumns(cm, header) == cm[..n]
    decreases n
  {
    if n > 0 {
      assert cm[1..][n - 1..] == cm[n..];
      KeepPrefix(cm[1..], header, n - 1);
      assert cm[..n] == [cm[0]] + cm[1..][..n - 1];
    }
  }

  /**
   * `tail(games)` after sorting by date keeps `min(games, matched)` of the
   * matched rows, and keeps the latest: every row left out is no later than
   * every row kept.
   */
  lemma LatestRowsKept(matches: seq<MatchRow>, games: int)
    requires games >= 0
    ensures var kept := LatestByDate(matches, games);
      && |kept| == Min(games, |matches|)
      && multiset(kept) <= multiset(matches)
      && forall d: MatchRow, k: MatchRow :: d in multiset(matches) - multiset(kept) && k in kept ==> d.date <= k.date
  {
    var sorted := SortByDate(matches);
    var kept := Tail(sorted, games);
    assert |sorted| == |matches| by {
      assert |multiset(sorted)| == |multiset(matches)|;
    }
    var cut := |sorted| - |kept|;
    SplitSorted(sorted, cut);
    assert kept == sorted[cut..];
  }

  /** Cutting a date-ordered sequence leaves no later row before the cut than after it. */
  lemma SplitSorted(sorted: seq<MatchRow>, cut: nat)
    requires DateSorted(sorted) && cut <= |sorted|
    ensures multiset(sorted) - multiset(sorted[cut..]) == multiset(sorted[..cut])
    ensures forall d: MatchRow, k: MatchRow :: d in multiset(sorted[..cut]) && k in sorted[cut..] ==> d.date <= k.date
  {
    var dropped, kept := sorted[..cut], sorted[cut..];
    assert sorted == dropped + kept;
    assert multiset(sorted) == multiset(dropped) + multiset(kept);
    forall d: MatchRow, k: MatchRow | d in multiset(dropped) && k in kept ensures d.date <= k.date {
      var i :| 0 <= i < |dropped| && dropped[i] == d;
      var j :| 0 <= j < |kept| && kept[j] == k;
      assert sorted[i] == d && sorted[cut + j] == k;
    }
  }

  /** Every aggregated row involves the team at the requested venue. */
  lemma KeptRowsInvolveTeam(rows: seq<MatchRow>, team: string, games: int, location: string)
    ensures forall r :: r in KeptRows(rows, team, games, location) ==>
      && Involves(r, team, VenueOf(location))
      && (location == "home" ==> r.homeTeam == team)
      && (location == "away" ==> r.awayTeam == team)
  {
    var matched := Select(rows, team, VenueOf(location));
    var sorted := SortByDate(matched);
    var kept := KeptRows(rows, team, games, location);
    forall r | r in kept ensures Involves(r, team, VenueOf(location)) {
      assert r in sorted;
      assert r in multiset(sorted);
      assert r in matched;
    }
  }

  /**
   * For a non-negative `games`, there is no report exactly when `games` is 0
   * or the team has no row at that venue.
   */
  lemma TeamStatsAbsent(rows: seq<MatchRow>, team: string, games: int, location: string)
    requires games >= 0
    ensures TeamStatsOf(rows, team, games, location).None? <==>
      games == 0 || |Select(rows, team, VenueOf(location))| == 0
  {
    var matched := Select(rows, team, VenueOf(location));
    assert |multiset(SortByDate(matched))| == |multiset(matched)|;
  }

  /**
   * A report names the team and carries the filter label of `games` and
   * `location`; its averages are its totals over the kept rows divided by the
   * `games` argument (not by the number of rows found), to 2 places; and the
   * goals scored plus the goals conceded are all the goals of those rows.
   */
  lemma TeamStatsAverages(rows: seq<MatchRow>, team: string, games: int, location: string)
    requires TeamStatsOf(rows, team, games, location).Some?
    ensures var r, kept := TeamStatsOf(rows, team, games, location).value, KeptRows(rows, team, games, location);
      && games != 0
      && r.team == team
      && r.filter == FilterLabel(games, location)
      && -0.005 <= r.avgGoalsFor - SumOf(kept, GoalsFor(team)) as real / games as real <= 0.005
      && -0.005 <= r.avgGoalsAgainst - SumOf(kept, GoalsAgainst(team)) as real / games as real <= 0.005
      && -0.005 <= r.avgShotsOnTarget - SumOf(kept, ShotsOnTarget(team)) as real / games as real <= 0.005
      && -0.005 <= r.avgCorners - SumOf(kept, Corners(team)) as real / games as real <= 0.005
      && -0.005 <= r.avgCards - SumOf(kept, Cards(team)) as real / games as real <= 0.005
      && SumOf(kept, GoalsFor(team)) + SumOf(kept, GoalsAgainst(team))
         == SumOf(kept, HomeGoals) + SumOf(kept, AwayGoals)
  {
    GoalsForAgainstSplit(KeptRows(rows, team, games, location), team);
  }
}

=== FILE: rounding.dfy ===
/**
 * Python's built-in `round(x, digits)` on reals: the value nearest to `x`
 * with `digits` decimal places, ties going to the even neighbour.
 */
module Rounding {

  /** 10 to the power `d`. */
  function Pow10(d: nat): (p: nat)
    ensures p >= 1
  {
    if d == 0 then 1 else 10 * Pow10(d - 1)
  }

  /** Half of the last kept decimal place: the largest error `round` may make. */
  function Tolerance(digits: nat): (t: real)
    ensures 0.0 < t <= 0.5
  {
    0.5 / Pow10(digits) as real
  }

  /** The integer nearest to `x`; on a tie, the even one. */
  function RoundHalfEven(x: real): (n: int)
    ensures -0.5 <= n as real - x <= 0.5
    ensures n as real - x == 0.5 || n as real - x == -0.5 ==> n % 2 == 0
  {
    var f := x.Floor;
    var frac := x - f as real;
    if frac < 0.5 then f
    else if frac > 0.5 then f + 1
    else if f % 2 == 0 then f
    else f + 1
  }

  /** Python's `round(x, digits)`. */
  function Round(x: real, digits: nat): (r: real)
    ensures -Tolerance(digits) <= r - x <= Tolerance(digits)
    ensures x >= 0.0 ==> r >= 0.0
  {
    var p := Pow10(digits) as real;
    var n := RoundHalfEven(x * p);
    ScaleError(n as real - x * p, p);
    n as real / p
  }

  /** Dividing an error of at most one half by `p` gives the tolerance at `p`. */
  lemma ScaleError(e: real, p: real)
    requires p >= 1.0 && -0.5 <= e <= 0.5
    ensures -0.5 / p <= e / p <= 0.5 / p
  {
  }
}

=== FILE: score_grid.dfy ===
/**
 * The K×K grid of scoreline probabilities (0..K-1 goals a side), sums over
 * regions of it, and the Poisson probability mass function it is built from.
 */
module ScoreGrid {

  /** Scorelines 0 to 5 goals a side. */
  const K: nat := 6

  /** `m[h][a]` is the probability of the score h–a (home–away). */
  type Matrix = seq<seq<real>>

  predicate IsGrid(m: Matrix) {
    |m| == K && forall h :: 0 <= h < K ==> |m[h]| == K
  }

  /** `scipy.stats.poisson.pmf(k, mu)`, supplied by the caller. */
  type Pmf = (int, real) -> real

  /** The probability mass the pmf puts on the counts 0 .. n-1. */
  function Mass(pmf: Pmf, mu: real, n: nat): real {
    if n == 0 then 0.0 else Mass(pmf, mu, n - 1) + pmf(n - 1, mu)
  }

  /**
   * What the model assumes of the Poisson pmf at a non-negative mean: each
   * value is a probability, and the counts 0 .. K-1 carry at most the whole
   * mass. Nothing is assumed at a negative mean, where scipy gives NaN.
   */
  ghost predicate PmfLaw(pmf: Pmf) {
    && (forall k: int, mu: real :: 0 <= k && 0.0 <= mu ==> 0.0 <= pmf(k, mu) <= 1.0)
    && (forall mu: real :: 0.0 <= mu ==> Mass(pmf, mu, K) <= 1.0)
  }

  /** `np.zeros((6, 6))` filled with `pmf(h, muHome) * pmf(a, muAway)`. */
  function ScoreMatrix(pmf: Pmf, muHome: real, muAway: real): (m: Matrix)
    ensures IsGrid(m)
    ensures forall h, a :: 0 <= h < K && 0 <= a < K ==> m[h][a] == pmf(h, muHome) * pmf(a, muAway)
  {
    seq(K, h => seq(K, a => pmf(h, muHome) * pmf(a, muAway)))
  }

  /** The cell sets the engine and the advisor add up. */
  datatype Region =
    | HomeWin     // h > a: np.tril(probs, -1)
    | Draw        // h == a: np.diag(probs)
    | AwayWin     // h < a: np.triu(probs, 1)
    | Over25      // more than 2.5 goals in all
    | Btts        // both sides score
    | Everything

  predicate In(reg: Region, h: int, a: int) {
    match reg
    case HomeWin => h > a
    case Draw => h == a
    case AwayWin => h < a
    case Over25 => h + a >= 3
    case Btts => h >= 1 && a >= 1
    case Everything => true
  }

  /** Sum of `row[a]` over the columns a < n whose cell (h, a) lies in `reg`. */
  function RowSum(row: seq<real>, h: int, reg: Region, n: nat): real
    requires n <= |row|
  {
    if n == 0 then 0.0
    else RowSum(row, h, reg, n - 1) + (if In(reg, h, n - 1) then row[n - 1] else 0.0)
  }

  /** Sum over the rows h < n of the cells of `reg`. */
  function GridSum(m: Matrix, reg: Region, n: nat): real
    requires IsGrid(m) && n <= K
  {
    if n == 0 then 0.0 else GridSum(m, reg, n - 1) + RowSum(m[n - 1], n - 1, reg, K)
  }

  /** The probability of `reg`: the sum of its cells. */
  function RegionSum(m: Matrix, reg: Region): real
    requires IsGrid(m)
  {
    GridSum(m, reg, K)
  }

  predicate NonNegative(m: Matrix)
    requires IsGrid(m)
  {
    forall h, a :: 0 <= h < K && 0 <= a < K ==> m[h][a] >= 0.0
  }

  lemma {:induction false} RowSplit(row: seq<real>, h: int, n: nat)
    requires n <= |row|
    ensures RowSum(row, h, HomeWin, n) + RowSum(row, h, Draw, n) + RowSum(row, h, AwayWin, n)
         == RowSum(row, h, Everything, n)
  {
    if n > 0 {
      RowSplit(row, h, n - 1);
    }
  }

  lemma {:induction false} GridSplit(m: Matrix, n: nat)
    requires IsGrid(m) && n <= K
    ensures GridSum(m, HomeWin, n) + GridSum(m, Draw, n) + GridSum(m, AwayWin, n)
         == GridSum(m, Everything, n)
  {
    if n > 0 {
      GridSplit(m, n - 1);
      RowSplit(m[n - 1], n - 1, K);
    }
  }

  /**
   * Home win, draw and away win cover every cell exactly once, so their
   * probabilities add up to the mass of the whole grid.
   */
  lemma OutcomePartition(m: Matrix)
    requires IsGrid(m)
    ensures RegionSum(m, HomeWin) + RegionSum(m, Draw) + RegionSum(m, AwayWin)
         == RegionSum(m, Everything)
  {
    GridSplit(m, K);
  }

  lemma {:induction false} RowBounds(row: seq<real>, h: int, reg: Region, n: nat)
    requires n <= |row|
    requires forall a :: 0 <= a < |row| ==> row[a] >= 0.0
    ensures 0.0 <= RowSum(row, h, reg, n) <= RowSum(row, h, Everything, n)
  {
    if n > 0 {
      RowBounds(row, h, reg, n - 1);
    }
  }

  lemma {:induction false} GridBounds(m: Matrix, reg: Region, n: nat)
    requires IsGrid(m) && NonNegative(m) && n <= K
    ensures 0.0 <= GridSum(m, reg, n) <= GridSum(m, Everything, n)
  {
    if n > 0 {
      GridBounds(m, reg, n - 1);
      RowBounds(m[n - 1], n - 1, reg, K);
    }
  }

  /** On a grid of probabilities every region has a probability no larger than the whole grid's. */
  lemma RegionBounds(m: Matrix, reg: Region)
    requires IsGrid(m) && NonNegative(m)
    ensures 0.0 <= RegionSum(m, reg) <= RegionSum(m, Everything)
  {
    GridBounds(m, reg, K);
  }

  lemma {:induction false} ScoreRowMass(pmf: Pmf, muHome: real, muAway: real, h: nat, n: nat)
    requires h < K && n <= K
    ensures RowSum(ScoreMatrix(pmf, muHome, muAway)[h], h, Everything, n)
         == pmf(h, muHome) * Mass(pmf, muAway, n)
  {
    if n > 0 {
      ScoreRowMass(pmf, muHome, muAway, h, n - 1);
      var p, rest, last := pmf(h, muHome), Mass(pmf, muAway, n - 1), pmf(n - 1, muAway);
      assert ScoreMatrix(pmf, muHome, muAway)[h][n - 1] == p * last;
      assert p * rest + p * last == p * (rest + last);
    }
  }

  lemma {:induction false} ScoreGridMass(pmf: Pmf, muHome: real, muAway: real, n: nat)
    requires n <= K
    ensures GridSum(ScoreMatrix(pmf, muHome, muAway), Everything, n)
         == Mass(pmf, muHome, n) * Mass(pmf, muAway, K)
  {
    if n > 0 {
      ScoreGridMass(pmf, muHome, muAway, n - 1);
      ScoreRowMass(pmf, muHome, muAway, n - 1, K);
    }
  }

  lemma {:induction false} MassNonNegative(pmf: Pmf, mu: real, n: nat)
    requires PmfLaw(pmf) && mu >= 0.0
    ensures Mass(pmf, mu, n) >= 0.0
  {
    if n > 0 {
      MassNonNegative(pmf, mu, n - 1);
      assert pmf(n - 1, mu) >= 0.0;
    }
  }

  /**
   * Under independence the grid's mass is the product of the two teams'
   * truncated masses, so it is a probability: at least 0 and at most 1.
   * The shortfall from 1 is the mass of scores of 6 goals or more.
   */
  lemma ScoreMatrixIsSubProbability(pmf: Pmf, muHome: real, muAway: real)
    requires PmfLaw(pmf) && muHome >= 0.0 && muAway >= 0.0
    ensures NonNegative(ScoreMatrix(pmf, muHome, muAway))
    ensures RegionSum(ScoreMatrix(pmf, muHome, muAway), Everything)
         == Mass(pmf, muHome, K) * Mass(pmf, muAway, K)
    ensures 0.0 <= RegionSum(ScoreMatrix(pmf, muHome, muAway), Everything) <= 1.0
  {
    var m := ScoreMatrix(pmf, muHome, muAway);
    forall h, a | 0 <= h < K && 0 <= a < K ensures m[h][a] >= 0.0 {
      ProbabilityProduct(pmf(h, muHome), pmf(a, muAway));
    }
    ScoreGridMass(pmf, muHome, muAway, K);
    MassNonNegative(pmf, muHome, K);
    MassNonNegative(pmf, muAway, K);
    ProbabilityProduct(Mass(pmf, muHome, K), Mass(pmf, muAway, K));
  }

  lemma ProbabilityProduct(x: real, y: real)
    requires 0.0 <= x <= 1.0 && 0.0 <= y <= 1.0
    ensures 0.0 <= x * y <= 1.0
  {
    MulNonNegative(x, y);
    MulNonNegative(1.0 - x, y);
    assert y - x * y == (1.0 - x) * y;
  }

  lemma MulNonNegative(a: real, b: real)
    requires a >= 0.0 && b >= 0.0
    ensures a * b >= 0.0
  {
  }

}

=== FILE: text_order.dfy ===
/**
 * Python's ordering of strings (lexicographic by code point) and
 * `sorted(set(names))`: the distinct names in strictly increasing order.
 */
module TextOrder {

  /** `a < b` on Python strings. */
  predicate Less(a: string, b: string)
    decreases |a|
  {
    if |a| == 0 then |b| > 0
    else if |b| == 0 then false
    else if a[0] != b[0] then a[0] < b[0]
    else Less(a[1..], b[1..])
  }

  lemma {:induction false} LessIrreflexive(a: string)
    ensures !Less(a, a)
    decreases |a|
  {
    if |a| > 0 {
      LessIrreflexive(a[1..]);
    }
  }

  lemma {:induction false} LessTrichotomy(a: string, b: string)
    ensures Less(a, b) || a == b || Less(b, a)
    decreases |a|
  {
    if |a| > 0 && |b| > 0 && a[0] == b[0] {
      LessTrichotomy(a[1..], b[1..]);
      if a[1..] == b[1..] {
        assert a == [a[0]] + a[1..] && b == [b[0]] + b[1..];
      }
    }
  }

  predicate StrictlySorted(s: seq<string>) {
    forall i, j :: 0 <= i < j < |s| ==> Less(s[i], s[j])
  }

  /** Inserts `x` into a strictly sorted list unless it is already there. */
  function InsertUnique(x: string, s: seq<string>): (r: seq<string>)
    requires StrictlySorted(s)
    ensures StrictlySorted(r)
    ensures forall y :: y in r <==> y == x || y in s
  {
    if |s| == 0 then [x]
    else if x == s[0] then s
    else if Less(x, s[0]) then
      assert forall j :: 0 < j < |s| ==> Less(s[0], s[j]);
      LessBelowHead(x, s);
      [x] + s
    else
      LessTrichotomy(x, s[0]);
      var rest := InsertUnique(x, s[1..]);
      assert forall y :: y in rest ==> Less(s[0], y) by {
        forall y | y in rest ensures Less(s[0], y) {
          if y != x {
            var j :| 0 <= j < |s[1..]| && s[1..][j] == y;
            assert s[j + 1] == y;
          }
        }
      }
      [s[0]] + rest
  }

  /** A name below the head of a strictly sorted list is below all of it. */
  lemma LessBelowHead(x: string, s: seq<string>)
    requires StrictlySorted(s) && |s| > 0 && Less(x, s[0])
    ensures StrictlySorted([x] + s)
  {
    forall j | 0 < j < |s| ensures Less(x, s[j]) {
      LessTransitive(x, s[0], s[j]);
    }
  }

  lemma {:induction false} LessTransitive(a: string, b: string, c: string)
    requires Less(a, b) && Less(b, c)
    ensures Less(a, c)
    decreases |a|
  {
    if |a| > 0 && a[0] == b[0] && b[0] == c[0] {
      LessTransitive(a[1..], b[1..], c[1..]);
    }
  }

  /** `sorted(set(names))`. */
  function SortedUnique(names: seq<string>): (r: seq<string>)
    ensures StrictlySorted(r)
    ensures forall y :: y in r <==> y in names
  {
    if |names| == 0 then []
    else InsertUnique(names[0], SortedUnique(names[1..]))
  }

  /** A strictly sorted list has no repeated name. */
  lemma StrictlySortedDistinct(s: seq<string>)
    requires StrictlySorted(s)
    ensures forall i, j :: 0 <= i < j < |s| ==> s[i] != s[j]
  {
    forall i, j | 0 <= i < j < |s| ensures s[i] != s[j] {
      LessIrreflexive(s[i]);
    }
  }
}

=== FILE: wrappers.dfy ===
/** The Option type used for Python's `None` results. */
module Wrappers {

  datatype Option<+T> = None | Some(value: T) {

    /** The value, or `default` when absent (Python's `dict.get(key, default)`). */
    function GetOr(default: T): T {
      match this
      case Some(v) => v
      case None => default
    }
  }
}
